=== FILE: README.md ===
# Kids' paint and memory app: a verified model of its logic

The app is a small single-page web app for children. It has:

- a **paint page**: a palette, an eraser, brush sizes, a transparency slider, background images that rotate on "New", and a clear button that asks for confirmation;
- a two-player **memory game**: a deck of emoji or theme-picture pairs is dealt face down, and players turn cards over two at a time;
- a small **server** that lists the image files and serves the page.

This project models the parts of the app that carry logic, as pure Dafny functions and small methods, and proves what they promise:

- **`MemoryDeck`** (memory_deck.dfy): how a deck is built.
  - Pick the pool: the 48 emojis, or the theme's card pictures.
  - Draw `floor(size / 2)` values without replacement.
  - Double each value into a pair and number the cards `0..n-1`.
  - Shuffle with Fisher–Yates.
  - `Math.random` is an oracle: two sequences of indices, each required to be in range.
- **`MemoryGame`** (memory_game.dfy): the turn state machine.
  - A click reveals a card.
  - The second click locks the board.
  - The delayed comparison (here the explicit `Resolve` step) either matches the pair and scores, or hides both cards and passes the turn.
  - Also covered: reset, game over and the verdict.
  - `Step`/`Run` drive the game with a sequence of clicks, timer firings and new games.
- **`MemoryTimer`** (memory_timer.dfy): the delayed comparison as the click handler schedules it. Its closure captures the card array, and nothing cancels it, so after a new game more than one can be pending (see Findings).
- **`Paint`** (paint.dfy): the paint page's tool state. It covers:
  - the 15-slot palette whose last slot is the Erase button;
  - colour and eraser mode;
  - brush sizes and transparency;
  - restoring and persisting the settings in local storage, and which background image start-up shows;
  - the "New" image rotation;
  - the pen state of a stroke and the canvas style it draws with;
  - the two-step clear confirmation.
- **`JsNumber`** (jsnumber.dfy): JavaScript's `parseInt(s, 10)` and `String(n)` for naturals. The settings are stored and restored through these.
- **`Routes`** (routes.dfy): the client's hash router.
- **`ImageServer`** (image_server.dfy): the server's `/api/images` filter and the single-page fallback that leaves `/api` paths alone.
- **`Basics`** (basics.dfy): shared vocabulary such as `Option`, `Distinct`, prefixes, and lemmas about multisets of mapped sequences.

## Model

| member | source | states |
|---|---|---|
| MemoryDeck.PairsCount | src/client/views/Memory.tsx:36 | the number of pairs is `size / 2` rounded down: twice it is at most `size` and less than `size + 2` |
| MemoryDeck.Pool | src/client/views/Memory.tsx:40-56 | the emoji pool is used exactly when the theme is `emoji` or its assets are missing or have no cards; otherwise the pool is the theme cards' URLs in order; the pool is never empty |
| MemoryDeck.EmojisDistinct | src/client/views/Memory.tsx:15-20 | the emoji pool has 48 entries, all different |
| MemoryDeck.Sample | src/client/views/Memory.tsx:41-46 | drawing without replacement yields `min(want, pool size)` values, a sub-multiset of the pool, for any in-range random picks |
| MemoryDeck.Pairs | src/client/views/Memory.tsx:47 | the pre-shuffle faces put each chosen value at positions `2i` and `2i+1`; length is twice the chosen count and every chosen value occurs twice as often |
| MemoryDeck.Deal | src/client/views/Memory.tsx:48 | card `i` gets face `i` and id `i`, so the ids are `0..n-1`, and every card starts neither matched nor revealed |
| MemoryDeck.Shuffle | src/client/views/Memory.tsx:49-52 | for any oracle choices `0 <= j <= i`, Fisher–Yates returns a permutation: the multisets of cards, faces and ids are preserved |
| MemoryDeck.EveryFaceTwice | src/client/views/Memory.tsx:47-52 | when the chosen values are distinct, every card's face is one of them and occurs exactly twice in the dealt deck |
| MemoryDeck.BuildDeck | src/client/views/Memory.tsx:39-69 | the deck holds each of `min(floor(size/2), pool size)` distinct pool values exactly twice; its ids are a permutation of `0..n-1`; all cards start fresh; an even size up to 96 on the emoji pool gives exactly `size` cards |
| MemoryGame.Reset | src/client/views/Memory.tsx:71-81 | a new game holds the new deck with zero scores, player 1, no selection and not busy; a fresh deck satisfies the game invariant |
| MemoryGame.Reveal | src/client/views/Memory.tsx:193-204 | a click while busy, out of range or on a matched or revealed card changes nothing, and only such clicks do; a valid click turns that card face up and changes nothing else about it or any other card, appends its index and locks the board on the second card; players, scores, faces and matches never change |
| MemoryGame.Resolve | src/client/views/Memory.tsx:209-226 | a match marks both cards matched and credits the current player, who keeps the turn; a mismatch hides both cards, keeps scores and passes the turn; either way the selection is cleared, the board unlocked, and all other cards are untouched |
| MemoryGame.GameOver | src/client/views/Memory.tsx:129 | a finished game has a non-empty board on which every position is matched, so no card waits for a comparison |
| MemoryGame.VerdictOf | src/client/views/Memory.tsx:308 | the game is a tie exactly when the scores are equal; otherwise the named winner has the higher score |
| MemoryGame.RevealPreservesInv | src/client/views/Memory.tsx:193-204 | clicks keep the game invariant: selection of at most two distinct unmatched revealed cards, busy exactly with two selected, matched cards revealed, and scores summing to half the matched cards |
| MemoryGame.LockedPair | src/client/views/Memory.tsx:203-208 | a locked board holds two different selected cards, both revealed and unmatched |
| MemoryGame.ResolveClearsPending | src/client/views/Memory.tsx:209-225 | after the comparison no card is left revealed and unmatched |
| MemoryGame.MatchAddsPair | src/client/views/Memory.tsx:210-216 | a match adds exactly two cards to the matched set, and a mismatch adds none |
| MemoryGame.ResolvePreservesInv | src/client/views/Memory.tsx:209-226 | the comparison step keeps the game invariant |
| MemoryGame.AtMostTwoPending | src/client/views/Memory.tsx:193-226 | at most two cards are ever revealed and unresolved, never more than are selected |
| MemoryGame.FinalScore | src/client/views/Memory.tsx:129 | when every card is matched the deck has even length and the two scores add up to half the deck |
| MemoryGame.GameOverIgnoresClicks | src/client/views/Memory.tsx:194-196 | once every card is matched, no click changes the game |
| MemoryGame.TurnOfTwoClicks | src/client/views/Memory.tsx:193-226 | two valid clicks and the comparison: equal faces score a pair for the player, who plays on; different faces leave both cards hidden again and hand the turn over |
| MemoryGame.NewGameCancelsTimer | src/client/views/Memory.tsx:71-81 | a new game cancels the pending comparison: a timer firing afterwards leaves the fresh game as it is |
| MemoryGame.Step | src/client/views/Memory.tsx:193-228 | a click is exactly `Reveal`; on a game in the invariant the timer resolves exactly while the board is locked and otherwise changes nothing; a new game is `Reset` of its deck, cancelling any pending comparison (the corrected behaviour; see Findings) |
| MemoryGame.RunPreservesInv | src/client/views/Memory.tsx:193-228 | for the corrected `Step`, where a new game cancels the pending comparison, any sequence of clicks, timer firings and new games on fresh decks keeps the invariant, so at most two cards are pending; the handlers as written break it (see `MemoryTimer.StaleMatchAfterNewGame`) |
| MemoryTimer.ClickAsWritten | src/client/views/Memory.tsx:197-209 | the click as written changes the game as `Reveal` does; exactly a click that locks the board appends one callback, over the card array of that moment and crediting the current player, behind those already pending |
| MemoryTimer.Callback | src/client/views/Memory.tsx:209-226 | the callback body as written always unlocks the board and clears the selection; its cards are its snapshot with only the two captured positions changed; a match marks both, credits the scorer captured at click time and keeps the current player; a mismatch turns both face down, passes the turn from whoever plays now and leaves the scores alone |
| MemoryTimer.FireAsWritten | src/client/views/Memory.tsx:209-226 | the earliest pending callback fires and is removed, leaving the board unlocked with no selection; with none pending nothing happens |
| MemoryTimer.NewGameAsWritten | src/client/views/Memory.tsx:71-81 | `resetGame` as written starts the new game and leaves every pending callback in place |
| MemoryTimer.ClickKeepsCoherent | src/client/views/Memory.tsx:197-209 | without a new game, the scheduled callback's snapshot, positions, outcome and scorer agree with the game state |
| MemoryTimer.FireAgreesWhenCoherent | src/client/views/Memory.tsx:209-226 | a callback that agrees with the game state does exactly what `Resolve` does |
| MemoryTimer.NewGameBreaksCoherence | src/client/views/Memory.tsx:71-81 | a new game while a callback is pending leaves a callback that no longer agrees with the game |
| MemoryTimer.StaleMatchAfterNewGame | src/client/views/Memory.tsx:209-226 | on any board, a new game while a matching pair waits puts the old cards back with that pair matched and scores the new game 1 to 0; after the last pair the new game opens on the finder's win, and when other pairs were matched the invariant breaks |
| MemoryTimer.StaleMismatchAfterNewGame | src/client/views/Memory.tsx:217-225 | on any board, a new game while a mismatched pair waits puts the old cards back with that pair face down, starts the new game with player 2 at 0 to 0, and breaks the invariant when pairs were already matched |
| MemoryTimer.TwoCallbacksPending | src/client/views/Memory.tsx:197-226 | after a new game, two quick clicks schedule a second callback while the stale one is pending; once both fire the new game credits two pairs for its one matched pair |
| MemoryTimer.StaleTimerAfterNewGame | src/client/views/Memory.tsx:209-226 | in a 4-card game, a new game during the second match's 700 ms window reopens on a fully matched board with a score of 1 to 0: "Player 1 wins!" on a game that was never played, breaking the invariant |
| Paint.Generated | src/client/views/Body.tsx:40-46 | the generated colours are `needed` HSL strings whose hues are `360/needed` apart, rounded half up |
| Paint.Palette | src/client/views/Body.tsx:24-49 | the palette has 15 colours, begins with the seven fixed ones in order, and every later one is an `hsl(` colour |
| Paint.PaletteLayout | src/client/views/Body.tsx:24-49 | the palette has 15 slots: the seven fixed colours in order, then hues 0, 45, …, 315 |
| Paint.HslColourInjective | src/client/views/Body.tsx:45 | different hues give different colour strings |
| Paint.PaletteDistinct | src/client/views/Body.tsx:24-49 | the 15 palette colours are pairwise different |
| Paint.Press | src/client/views/Body.tsx:390-424 | the last palette slot turns eraser mode on and keeps the selected colour; every other slot selects its colour and turns eraser mode off |
| Paint.LastColourUnavailable | src/client/views/Body.tsx:390-397 | the fifteenth palette colour can never be picked from the palette, while each of the first fourteen slots selects its own colour |
| Paint.PickColour | src/client/views/Body.tsx:51-53 | picking a colour selects it and leaves eraser mode, touching nothing else |
| Paint.Erase | src/client/views/Body.tsx:397 | Erase turns eraser mode on and leaves the selected colour and sizes alone |
| Paint.PickBrushSize | src/client/views/Body.tsx:343-347 | button `s` sets the brush size to `s`, one of {4, 8, …, 32}, which the eraser shares, and changes nothing else |
| Paint.SetTransparency | src/client/views/Body.tsx:320-326 | the slider sets transparency to its 0..100 value and keeps the settings valid |
| Paint.RestoredSize | src/client/views/Body.tsx:67-71 | a stored brush size is used exactly when the entry is present and `parseInt` gives an integer above 0, and the size used is the number `parseInt` read |
| Paint.RestoredAlpha | src/client/views/Body.tsx:72-76 | a stored transparency is used exactly when the entry is present and `parseInt` gives an integer in 0..100, and the value used is the number `parseInt` read |
| Paint.NegativeEntries | src/client/views/Body.tsx:67-76 | a stored `-` followed by digits, after any white space and before any non-digit tail, never restores a brush size, and restores no transparency unless the digits are all zero |
| Paint.PlusEntries | src/client/views/Body.tsx:67-76 | a stored `+` followed by digits restores what the digits alone would: the size when positive, the transparency when at most 100 |
| Paint.Restore | src/client/views/Body.tsx:60-78 | each truthy stored setting that passes its check replaces the current one, anything else keeps the default, and valid settings stay valid |
| Paint.Persist | src/client/views/Body.tsx:131-140 | the saved colour and image are the current ones, and the saved brush size and transparency strings restore to exactly the current values |
| Paint.PersistRestoreRoundTrip | src/client/views/Body.tsx:60-78 | the restore effect alone, applied to what was saved, gives back colour, image, brush size and transparency, with eraser mode off (the image loader, which as written overrides the image, is `Paint.StartUpAsWritten`) |
| Paint.IndexOf | src/client/views/Body.tsx:116 | `indexOf` is -1 exactly for absent names, and otherwise the first position holding the name |
| Paint.NextImage | src/client/views/Body.tsx:114-117 | no image for an empty list; otherwise always a listed image: the one after the current (first occurrence, wrapping round), or the first when there is no current image or it is unlisted |
| Paint.OnNew | src/client/views/Body.tsx:114-125 | with no images "New" does nothing; otherwise it shows the next image and wipes the canvas when there is a drawing context |
| Paint.FirstImage | src/client/views/Body.tsx:85-91 | with `current` the image the loader's closure sees, loading a non-empty list shows its first image exactly when that value is null or empty |
| Paint.StartUpAsWritten | src/client/views/Body.tsx:60-98 | at start-up as written the settings are restored, but a non-empty listing replaces the restored image with its first entry, since the first loader saw a null image |
| Paint.SavedImageLost | src/client/views/Body.tsx:85-91 | as written, a saved image that is not the first listed one never survives a restart |
| Paint.SavedImageLostExample | src/client/views/Body.tsx:85-91 | saved `/images/b.png` with listing `a.png`, `b.png` restarts on `/images/a.png` |
| Paint.StartUp | src/client/views/Body.tsx:60-98 | the intended start-up keeps a restored image and shows the first listed one only when none was saved |
| Paint.RestartRoundTrip | src/client/views/Body.tsx:60-140 | with the intended start-up, saving and restarting gives back every saved setting and the saved image, whatever the directory holds |
| Paint.NextOfListed | src/client/views/Body.tsx:114-117 | on a list without repeats whose names are non-empty, "New" moves from image `k` to `k+1`, and from the last to the first |
| Paint.AdvanceCycles | src/client/views/Body.tsx:114-118 | on a list without repeats whose names are non-empty, `n` presses of "New" from image `k` show image `(k + n) mod len` |
| Paint.NewWalksListing | src/client/views/Body.tsx:104-118 | the rotation over the server's listing of a directory, whose file names are distinct, visits every image in directory order, once per round |
| Paint.StyleOf | src/client/views/Body.tsx:237-258 | the eraser cuts out with alpha 1 whatever the colour; the brush paints over with alpha `1 - transparency/100`, clamped to [0, 1], in the selected colour or black; the width is the brush size in both modes |
| Paint.EraserIgnoresColour | src/client/views/Body.tsx:240-245 | the eraser's style does not depend on the selected colour or the transparency |
| Paint.AlphaAntitone | src/client/views/Body.tsx:251 | raising the transparency never makes the brush more opaque |
| Paint.StartDraw | src/client/views/Body.tsx:231-259 | pressing on the canvas puts the pen down at the point and draws a dot there in the current style; without a context nothing changes |
| Paint.MoveDraw | src/client/views/Body.tsx:261-290 | moving does nothing unless the pen is down; then it draws a segment ending at the new point in the current style and remembers that point |
| Paint.EndDraw | src/client/views/Body.tsx:292-295 | lifting or leaving puts the pen up and forgets the last point |
| Paint.PenOperationsKeepInv | src/client/views/Body.tsx:231-295 | the pen is down exactly when it remembers a last point, under every pen operation |
| Paint.DragIsConnected | src/client/views/Body.tsx:261-290 | a drag draws one connected polyline: segment `i` runs from the previous point to point `i` |
| Paint.OnClearEvent | src/client/views/Body.tsx:172-177 | a clear request only opens the dialog; "Yes!" emits the clear request exactly when the dialog is open; both buttons close it |
| Paint.ClearIsTwoStep | src/client/views/Body.tsx:468-483 | over any event sequence, the clear request is emitted exactly by a "Yes!" directly after a request |
| JsNumber.ParseInt | src/client/views/Body.tsx:69 | `parseInt` of an empty or all-white-space string is NaN, and a number is only read from a string containing a digit |
| JsNumber.ParseIntSigned | src/client/views/Body.tsx:69 | after white space, `-` and digits read as the negated value and `+` and digits as the value, whatever non-digit text follows |
| JsNumber.NatToString | src/client/views/Body.tsx:133 | `String(n)` is a non-empty digit string without a leading zero |
| JsNumber.ParseIntSkipsSpace | src/client/views/Body.tsx:69 | `parseInt` ignores leading white space |
| JsNumber.ParseIntOfNatToString | src/client/views/Body.tsx:69 | `parseInt` reads back `n` from `String(n)`, with any leading white space and any non-digit tail |
| JsNumber.ParseIntRoundTrip | src/client/views/Body.tsx:133-138 | `parseInt(String(n), 10) == n` for every natural `n` |
| Routes.RemoveFirst | src/client/App.tsx:15 | `replace('#', '')` leaves a string without `#` unchanged and otherwise removes exactly one character |
| Routes.RemoveFirstAt | src/client/App.tsx:15 | the character removed is the first `#`: with `s[k]` the first `#`, the result is `s` without position `k` |
| Routes.Parse | src/client/App.tsx:14-19 | the page is paint exactly when the path starts with `/paint` and memory exactly when it starts with `/memory`; no hash is home |
| Routes.PaintMemoryDisjoint | src/client/App.tsx:16-17 | no path starts with both `/paint` and `/memory`, so the order of the two tests does not matter |
| Routes.ParseByPrefix | src/client/App.tsx:14-19 | the page of `#path` is paint exactly for `/paint…`, memory exactly for `/memory…`, and home for everything else |
| Routes.ParseHref | src/client/App.tsx:14-19 | a hash starting with a page's link opens that page, whatever follows |
| Routes.EmptyHashIsHome | src/client/App.tsx:15 | no hash, or a bare `#`, counts as `/home` and shows the landing page |
| Routes.HashSignIsOptional | src/client/App.tsx:15 | a path without `#` is routed the same with or without a leading `#` |
| ImageServer.AsciiUpper | src/server/index.ts:28 | ASCII upper-casing, which agrees with the `i` flag on comparisons against the ASCII extensions: only the two cases of an ASCII letter fold to it |
| ImageServer.IsImageName | src/server/index.ts:28 | a name that passes the filter has a dot four or five characters from its end |
| ImageServer.KeepImages | src/server/index.ts:27-29 | the listing is no longer than the directory, lists only image files, and lists every image file, each as `/images/` plus its name |
| ImageServer.ListImages | src/server/index.ts:22-31 | a failed read answers 500 with "Unable to read images directory", and only a failed read does; a missing file list gives an empty image list |
| ImageServer.ImageUrlInjective | src/server/index.ts:29 | different file names give different URLs |
| ImageServer.ListedExactly | src/server/index.ts:27-29 | `/images/name` is listed if and only if `name` is in the directory and ends in `.png`, `.jpg`, `.jpeg` or `.gif` in any case |
| ImageServer.KeepImagesAppend | src/server/index.ts:27-29 | the filter keeps directory order: listing two parts in turn gives the listing of the whole |
| ImageServer.ListedUnderImages | src/server/index.ts:29 | every listed URL starts with `/images/` |
| ImageServer.ListingKeepsDistinct | src/server/index.ts:27-29 | distinct file names give a listing without repeats |
| ImageServer.ExtensionMakesImage | src/server/index.ts:28 | any name ending in one of the four extensions, in any mix of cases, is an image |
| ImageServer.SpaFallback | src/server/index.ts:35-37 | a path goes on to the API routes exactly when its first four characters are `/api`, in particular every `/api/...` path |
| ImageServer.FallbackByPrefix | src/server/index.ts:35-37 | a path is passed on to the API routes, never answered with `index.html`, exactly when it starts with `/api` |

## Left out

- Canvas pixels are not modelled: `arc`, `lineTo`, `clearRect`, line caps, device-pixel-ratio resizing, the cursor preview dot and `pointerToStage` (src/client/views/Body.tsx:142-229). Drawing is described by the marks and styles a stroke asks for, and pointer positions are inputs.
- `fetch`, `localStorage`, `CustomEvent` dispatch and listener wiring are I/O. Their values are parameters:
  - the image list;
  - the stored entries (`Stored`);
  - whether a drawing context exists;
  - the clear events.

  The `selectedColor` write and the `palette:selected` event in `onPickColor` (src/client/views/Body.tsx:54-57) are left out for the same reason.
- Persisting settings is a function of the state (`Persist`). Storage failures, which the source swallows, are not modelled.
- The theme list and theme assets are fetched (src/client/views/Memory.tsx:84-127). The fetched assets are a parameter of `Pool`/`BuildDeck`. The theme picker's own state is not modelled.
- Board layout and sizing are left out (`computeSizing`, `ResizeObserver`, `requestAnimationFrame`; src/client/views/Memory.tsx:131-191), along with rendering and the `seed` counter that only re-triggers the deck effect. The size buttons offer 18 and 28 cards; `size` is any natural here.
- Deck rebuilds outside a new game are not modelled. The deck effect (src/client/views/Memory.tsx:114-117) also rebuilds the deck when the theme assets arrive, keyed only on their card count. That rebuild does not reset the selection, the lock or the scores. `MemoryGame.Step` ties every rebuild to `Reset`.
- The 700 ms delay is not modelled as time. The comparison is the explicit `Timer` event, enabled only while the board is busy.
- React render batching is not modelled. Each handler's state updates take effect together, and events are handled one at a time.
- `MemoryDeck.Shuffle` proves a permutation, not uniformity. Fairness of the shuffle is a probabilistic property; randomness is an oracle of in-range indices.
- `MemoryDeck.BuildDeck` is weaker than the source for theme pools with repeated URLs. Every face occurring exactly twice is proved only for a pool without repeats, which the emoji pool is.
- `Paint.StyleOf` uses exact reals for alpha, not IEEE doubles. `1 - t/100` is exact here, where the browser rounds.
- `Paint.Generated` computes `Math.round((360 / needed) * i)` as exact rational rounding. For the 8 generated colours all hues are exact multiples of 45, so floating point does not change them.
- `JsNumber.ParseIntOfNatToString` treats numbers as unbounded integers. `parseInt` loses precision above 2^53, and `String(n)` switches to exponent form from 10^21; neither is modelled. Numbers are integers, so `parseInt("-0")` is 0 here where JavaScript gives -0; the range check and the alpha computation treat both alike.
- `eraserSizeRef` starts at 10 (src/client/views/Body.tsx:18), but the effect at line 22 overwrites it with the brush size before any use, and drawing never reads it. `Tool.eraserSize` therefore starts equal to the brush size.
- `MemoryTimer.Callback` simply unlocks the board when a captured position is outside the captured array. The source would write a partial card there, which cannot happen from a game state satisfying the invariant.
- Start-up takes one listing for every run of the image loader, with a failed fetch as an empty listing (`Paint.StartUpAsWritten`). The interleaving of the loader's fetches is not modelled: whichever finishes last, the first render's loader shows the first image.
- Clearing the canvas itself is not modelled. The `canvas:clear` handler (src/client/views/Body.tsx:179-189) does nothing without a canvas and a 2D context. `Paint.OnClearEvent` and `Paint.ClearIsTwoStep` state when the clear is requested, not that pixels are wiped.
- The server's Express setup is left out: static files, CORS, `/api/hello`, `listen` and `fs.readdir` itself. The directory read is a parameter (`DirRead`).
- The route's rendering of `Main`, `Memory` or `Home` (src/client/App.tsx:25-27) is not modelled: it is a direct case on the parsed route. The `hashchange` wiring is also left out.
- Header, Nav, Home, Main, Footer, LandscapeGate, src/index.tsx and webpack.config.js are not part of this model. They are UI chrome, event wiring or build configuration.

## Findings

| source | as written | input that shows it | evidently intended | confidence | as-written member | corrected member |
|---|---|---|---|---|---|---|
| src/client/views/Memory.tsx:209-226 | the comparison callback captures the card array, positions, outcome and player at the second click, and nothing cancels it when `resetGame` (New Game, size or theme pick) starts a new deck | 4 cards A A B B: player 1 matches cards 0 and 1, then turns 2 and 3 and presses New Game within 700 ms. The callback restores the old, fully matched cards over the new deck and gives player 1 a point, so the new game opens on "Player 1 wins!". The same steps on the last pair of an 18-card game do the same (`MemoryTimer.StaleMatchAfterNewGame` holds for any board size). Two quick clicks after the new game leave two callbacks pending (`MemoryTimer.TwoCallbacksPending`) | a new game discards the pending comparison, and the fresh deck and zero scores stay | not executed | MemoryTimer.StaleTimerAfterNewGame | MemoryGame.NewGameCancelsTimer |
| src/client/views/Body.tsx:80-98 | the image loader closes over the first render's `imageSrc`, which is null, so when its listing arrives it shows and saves the first listed image, overwriting the image the restore effect (lines 65-66) just brought back | `/images/b.png` saved; the directory holds `a.png` and `b.png`; the restart shows `/images/a.png` | the saved image comes back, and the first listed image is shown only when none was saved | not executed | Paint.SavedImageLostExample | Paint.RestartRoundTrip |

=== FILE: basics.dfy ===
/** Small vocabulary shared by the modules of this model: an optional value,
    sequence predicates (distinctness, prefixes, suffixes) and the facts about
    multisets of mapped sequences that the deck proofs need. */
module Basics {

  /** A value that may be absent: JavaScript's `null`/`undefined`. */
  datatype Option<+T> = None | Some(value: T)

  function Min(a: int, b: int): int
  {
    if a <= b then a else b
  }

  /** No element occurs twice. */
  predicate Distinct<T(==)>(s: seq<T>)
  {
    forall i, j :: 0 <= i < j < |s| ==> s[i] != s[j]
  }

  /** The set of elements of a sequence. */
  function Elems<T>(s: seq<T>): set<T>
  {
    set x | x in s
  }

  predicate StartsWith<T(==)>(s: seq<T>, prefix: seq<T>)
  {
    |prefix| <= |s| && s[..|prefix|] == prefix
  }

  predicate EndsWith<T(==)>(s: seq<T>, suffix: seq<T>)
  {
    |suffix| <= |s| && s[|s| - |suffix|..] == suffix
  }

  /** The sequence `[0, 1, ..., n - 1]`. */
  function Range(n: nat): (r: seq<nat>)
    ensures |r| == n
    ensures forall i :: 0 <= i < n ==> r[i] == i
  {
    if n == 0 then [] else Range(n - 1) + [n - 1]
  }

  /** The set `{0, 1, ..., n - 1}`. */
  function Below(n: nat): (r: set<nat>)
    ensures |r| == n
    ensures forall i :: i in r <==> 0 <= i < n
  {
    if n == 0 then {} else Below(n - 1) + {n - 1}
  }

  function MapSeq<T, U>(f: T -> U, s: seq<T>): (r: seq<U>)
    ensures |r| == |s|
    ensures forall i :: 0 <= i < |s| ==> r[i] == f(s[i])
  {
    seq(|s|, i requires 0 <= i < |s| => f(s[i]))
  }

  /** A distinct sequence has no more elements than a bag bound of one per value. */
  lemma {:induction false} DistinctMultiplicity<T>(s: seq<T>, x: T)
    requires Distinct(s)
    ensures multiset(s)[x] <= 1
  {
    if s != [] {
      assert s == [s[0]] + s[1..];
      assert Distinct(s[1..]) by {
        forall i, j | 0 <= i < j < |s[1..]| ensures s[1..][i] != s[1..][j] {
          assert s[1..][i] == s[i + 1] && s[1..][j] == s[j + 1];
        }
      }
      DistinctMultiplicity(s[1..], x);
      if s[0] == x {
        assert x !in s[1..] by {
          forall k | 0 <= k < |s[1..]| ensures s[1..][k] != x {
            assert s[1..][k] == s[k + 1];
          }
        }
      }
    }
  }

  /** A sub-bag of a distinct sequence's bag belongs to a distinct sequence. */
  lemma {:induction false} SubBagOfDistinct<T>(a: seq<T>, b: seq<T>)
    requires Distinct(b)
    requires multiset(a) <= multiset(b)
    ensures Distinct(a)
  {
    forall i, j | 0 <= i < j < |a| ensures a[i] != a[j] {
      if a[i] == a[j] {
        assert a == a[..i] + [a[i]] + a[i + 1..j] + [a[j]] + a[j + 1..];
        assert multiset(a)[a[i]] >= 2;
        DistinctMultiplicity(b, a[i]);
        assert false;
      }
    }
  }

  /** A sequence has at least as many positions as distinct elements. */
  lemma {:induction false} ElemsBound<T>(s: seq<T>)
    ensures |Elems(s)| <= |s|
  {
    if s != [] {
      ElemsBound(s[1..]);
      assert Elems(s) == {s[0]} + Elems(s[1..]);
    }
  }

  /** Removing the element at `k` removes exactly one copy of it from the bag. */
  lemma RemoveAt<T>(s: seq<T>, k: nat)
    requires k < |s|
    ensures multiset(s) == multiset(s[..k] + s[k + 1..]) + multiset{s[k]}
  {
    assert s == s[..k] + [s[k]] + s[k + 1..];
  }

  lemma CancelOne<T>(p: multiset<T>, q: multiset<T>, x: T)
    requires p + multiset{x} == q + multiset{x}
    ensures p == q
  {
    forall y ensures p[y] == q[y] {
      assert (p + multiset{x})[y] == (q + multiset{x})[y];
    }
  }

  /** Removing position `k` before or after mapping removes the same value. */
  lemma MapRemoveAt<T, U>(f: T -> U, s: seq<T>, k: nat)
    requires k < |s|
    ensures multiset(MapSeq(f, s)) == multiset(MapSeq(f, s[..k] + s[k + 1..])) + multiset{f(s[k])}
  {
    var fs := MapSeq(f, s);
    assert MapSeq(f, s[..k] + s[k + 1..]) == fs[..k] + fs[k + 1..];
    RemoveAt(fs, k);
  }

  /** Taking the first element of one sequence and an equal element of a
      permutation of it leaves two permutations of each other. */
  lemma RemoveMatching<T>(a: seq<T>, b: seq<T>, k: nat)
    requires a != [] && k < |b| && b[k] == a[0]
    requires multiset(a) == multiset(b)
    ensures multiset(a[1..]) == multiset(b[..k] + b[k + 1..])
  {
    var pa, pb := multiset(a[1..]), multiset(b[..k] + b[k + 1..]);
    assert a == [a[0]] + a[1..];
    assert multiset(a) == pa + multiset{a[0]};
    RemoveAt(b, k);
    CancelOne(pa, pb, a[0]);
  }

  lemma MapRemoveFirst<T, U>(f: T -> U, s: seq<T>)
    requires s != []
    ensures multiset(MapSeq(f, s)) == multiset(MapSeq(f, s[1..])) + multiset{f(s[0])}
  {
    assert MapSeq(f, s) == [f(s[0])] + MapSeq(f, s[1..]);
  }

  /** Mapping two sequences that agree after removing a matching pair of
      elements gives sequences that agree. */
  lemma MapsAfterRemoval<T, U>(f: T -> U, a: seq<T>, b: seq<T>, k: nat)
    requires a != [] && k < |b| && b[k] == a[0]
    requires multiset(MapSeq(f, a[1..])) == multiset(MapSeq(f, b[..k] + b[k + 1..]))
    ensures multiset(MapSeq(f, a)) == multiset(MapSeq(f, b))
  {
    var ma := multiset(MapSeq(f, a[1..]));
    var mb := multiset(MapSeq(f, b[..k] + b[k + 1..]));
    assert multiset(MapSeq(f, a)) == ma + multiset{f(a[0])} by {
      MapRemoveFirst(f, a);
    }
    assert multiset(MapSeq(f, b)) == mb + multiset{f(a[0])} by {
      MapRemoveAt(f, b, k);
    }
  }

  /** Applying a function to both sides keeps two sequences permutations of
      each other. */
  lemma {:induction false} PermutationMaps<T, U>(f: T -> U, a: seq<T>, b: seq<T>)
    requires multiset(a) == multiset(b)
    ensures multiset(MapSeq(f, a)) == multiset(MapSeq(f, b))
    decreases |a|
  {
    if a == [] {
      assert |b| == |multiset(b)| == 0;
      assert MapSeq(f, a) == [] == MapSeq(f, b);
    } else {
      assert a[0] in multiset(b);
      var k :| 0 <= k < |b| && b[k] == a[0];
      RemoveMatching(a, b, k);
      PermutationMaps(f, a[1..], b[..k] + b[k + 1..]);
      MapsAfterRemoval(f, a, b, k);
    }
  }

  lemma MulAtLeast(a: int, len: int)
    requires a >= 1 && len > 0
    ensures a * len >= len
  {
  }

  /** Euclidean division has one remainder. */
  lemma ModUnique(y: int, len: int, q: int, r: int)
    requires len > 0 && 0 <= r < len && y == q * len + r
    ensures y / len == q && y % len == r
  {
    var q', r' := y / len, y % len;
    assert q * len + r == q' * len + r';
    assert (q - q') * len == r' - r;
    if q > q' {
      MulAtLeast(q - q', len);
    } else if q < q' {
      MulAtLeast(q' - q, len);
    }
  }

  /** One step further round a cycle of length `len`. */
  lemma WrapStep(k: nat, n: nat, len: nat)
    requires k < len && n > 0
    ensures ((k + 1) % len + (n - 1)) % len == (k + n) % len
  {
    if k + 1 == len {
      ModUnique(k + 1, len, 1, 0);
      var q, r := (n - 1) / len, (n - 1) % len;
      assert k + n == (q + 1) * len + r;
      ModUnique(k + n, len, q + 1, r);
    } else {
      ModUnique(k + 1, len, 0, k + 1);
    }
  }
}

=== FILE: image_server.dfy ===
/** The two pieces of request handling in src/server/index.ts that carry
    logic: the `/api/images` listing, which keeps the image files of a
    directory listing and turns them into public URLs, and the single-page
    fallback, which leaves `/api` paths to the API routes. */
module ImageServer {
  import opened Basics

  /** Upper-casing of ASCII letters. The regular expression's `i` flag folds
      more than this (without the `u` flag it also folds non-ASCII letters,
      so `/é/i` matches `É`), but every extension in the filter is ASCII,
      and the only characters that fold to an ASCII letter are the two
      cases of that letter: compared against the extensions, the `i` flag
      and `AsciiUpper` agree. */
  function AsciiUpper(c: char): (u: char)
    ensures 'a' <= c <= 'z' ==> u as int == c as int - 32
    ensures !('a' <= c <= 'z') ==> u == c
  {
    if 'a' <= c <= 'z' then (c as int - 32) as char else c
  }

  /** `s` ends with `suffix`, letters compared without regard to case. Only
      `.` itself upper-cases to `.`, so a suffix that begins with a dot has
      its dot in `s` too. */
  predicate EndsWithIgnoringCase(s: string, suffix: string)
    ensures EndsWithIgnoringCase(s, suffix) ==> |suffix| <= |s|
    ensures EndsWithIgnoringCase(s, suffix) && |suffix| > 0 && suffix[0] == '.' ==>
      s[|s| - |suffix|] == '.'
  {
    |suffix| <= |s| &&
    forall i :: 0 <= i < |suffix| ==> AsciiUpper(s[|s| - |suffix| + i]) == AsciiUpper(suffix[i])
  }

  /** The extensions of `/(\.png|\.jpg|\.jpeg|\.gif)$/i`. */
  const ImageExtensions: seq<string> := [".png", ".jpg", ".jpeg", ".gif"]

  /** The listing's filter: the name ends with one of the extensions, in
      any case. Such a name has a dot four or five characters from its end. */
  predicate IsImageName(name: string)
    ensures IsImageName(name) ==>
      |name| >= 4 && (name[|name| - 4] == '.' || (|name| >= 5 && name[|name| - 5] == '.'))
  {
    || EndsWithIgnoringCase(name, ImageExtensions[0])
    || EndsWithIgnoringCase(name, ImageExtensions[1])
    || EndsWithIgnoringCase(name, ImageExtensions[2])
    || EndsWithIgnoringCase(name, ImageExtensions[3])
  }

  /** The public URL of an image file. */
  function ImageUrl(name: string): (url: string)
    ensures |url| > 0
  {
    "/images/" + name
  }

  /** `files.filter(isImage).map(f => "/images/" + f)`. */
  function KeepImages(files: seq<string>): (urls: seq<string>)
    ensures |urls| <= |files|
    ensures forall u :: u in urls ==> exists f :: f in files && IsImageName(f) && u == ImageUrl(f)
    ensures forall f :: f in files && IsImageName(f) ==> ImageUrl(f) in urls
  {
    if files == [] then []
    else
      var rest := KeepImages(files[1..]);
      if IsImageName(files[0]) then [ImageUrl(files[0])] + rest else rest
  }

  /** A directory read: it fails, or yields a list of names that may be
      missing altogether. */
  datatype DirRead = ReadFailed | ReadOk(files: Option<seq<string>>)

  /** The response of `/api/images`. */
  datatype Response = ImageList(images: seq<string>) | ServerError(status: nat, error: string)

  /** `GET /api/images`: a failed read answers 500 with a fixed message;
      otherwise the image files, a missing list counting as empty. */
  function ListImages(read: DirRead): (r: Response)
    ensures read.ReadFailed? <==> r.ServerError?
    ensures r.ServerError? ==> r.status == 500 && r.error == "Unable to read images directory"
    ensures read == ReadOk(None) ==> r == ImageList([])
  {
    match read
    case ReadFailed => ServerError(500, "Unable to read images directory")
    case ReadOk(files) =>
      var names := if files.Some? then files.value else [];
      ImageList(KeepImages(names))
  }

  /** `/images/` in front of a name can be taken off again. */
  lemma ImageUrlInjective(a: string, b: string)
    requires ImageUrl(a) == ImageUrl(b)
    ensures a == b
  {
    assert a == ImageUrl(a)[8..];
    assert b == ImageUrl(b)[8..];
  }

  /** A URL is listed exactly when it is `/images/` followed by the name of
      an image file in the directory. */
  lemma ListedExactly(files: seq<string>, name: string)
    ensures ImageUrl(name) in KeepImages(files) <==> name in files && IsImageName(name)
  {
    if ImageUrl(name) in KeepImages(files) {
      var f :| f in files && IsImageName(f) && ImageUrl(name) == ImageUrl(f);
      ImageUrlInjective(name, f);
    }
  }

  /** The filter keeps the directory's order: listing two parts of a
      directory one after the other gives the listing of the whole. */
  lemma {:induction false} KeepImagesAppend(a: seq<string>, b: seq<string>)
    ensures KeepImages(a + b) == KeepImages(a) + KeepImages(b)
    decreases |a|
  {
    if a == [] {
      assert a + b == b;
    } else {
      assert (a + b)[1..] == a[1..] + b;
      KeepImagesAppend(a[1..], b);
    }
  }

  /** Every listed URL lies under `/images/`. */
  lemma {:induction false} ListedUnderImages(files: seq<string>)
    ensures forall u :: u in KeepImages(files) ==> StartsWith(u, "/images/")
  {
    forall u | u in KeepImages(files) ensures StartsWith(u, "/images/") {
      var f :| f in files && IsImageName(f) && u == ImageUrl(f);
      assert u[..8] == "/images/";
    }
  }

  /** Names that are all different give URLs that are all different. */
  lemma {:induction false} ListingKeepsDistinct(files: seq<string>)
    requires Distinct(files)
    ensures Distinct(KeepImages(files))
    decreases |files|
  {
    if files != [] {
      var rest := KeepImages(files[1..]);
      assert Distinct(files[1..]) by {
        forall i, j | 0 <= i < j < |files[1..]| ensures files[1..][i] != files[1..][j] {
          assert files[1..][i] == files[i + 1] && files[1..][j] == files[j + 1];
        }
      }
      ListingKeepsDistinct(files[1..]);
      if IsImageName(files[0]) {
        assert files[0] !in files[1..] by {
          forall k | 0 <= k < |files[1..]| ensures files[1..][k] != files[0] {
            assert files[1..][k] == files[k + 1];
          }
        }
        ListedExactly(files[1..], files[0]);
        var urls := [ImageUrl(files[0])] + rest;
        forall i, j | 0 <= i < j < |urls| ensures urls[i] != urls[j] {
          if i == 0 {
            assert urls[j] == rest[j - 1];
          } else {
            assert urls[i] == rest[i - 1] && urls[j] == rest[j - 1];
          }
        }
      }
    }
  }

  /** Whatever the case of its letters, a name with one of the extensions
      is an image. */
  lemma ExtensionMakesImage(stem: string, ext: string, k: nat)
    requires k < |ImageExtensions|
    requires |ext| == |ImageExtensions[k]|
    requires forall i :: 0 <= i < |ext| ==> AsciiUpper(ext[i]) == AsciiUpper(ImageExtensions[k][i])
    ensures IsImageName(stem + ext)
  {
    var name := stem + ext;
    forall i | 0 <= i < |ext| ensures name[|name| - |ext| + i] == ext[i] {
    }
    assert EndsWithIgnoringCase(name, ImageExtensions[k]);
  }

  /** What the catch-all route does with a path. */
  datatype Fallback = PassToApi | SendIndexPage

  /** The single-page fallback: paths under `/api` go on to the API routes
      (and to the 404 handler when none matches); every other path gets the
      client's `index.html`. */
  function SpaFallback(path: string): (r: Fallback)
    ensures r == PassToApi <==> |path| >= 4 && path[..4] == "/api"
    ensures |path| >= 5 && path[..5] == "/api/" ==> r == PassToApi
  {
    if StartsWith(path, "/api") then PassToApi else SendIndexPage
  }

  /** Only `/api` paths bypass the page, including ones that merely begin
      with those four characters such as `/apiary`. */
  lemma FallbackByPrefix(rest: string, path: string)
    ensures SpaFallback("/api" + rest) == PassToApi
    ensures SpaFallback(path) == PassToApi <==> |path| >= 4 && path[..4] == "/api"
  {
    assert ("/api" + rest)[..4] == "/api";
  }
}

=== FILE: jsnumber.dfy ===
/** The two JavaScript number conversions the paint settings rely on:
    `String(n)` for a non-negative integer (how a setting is written to
    local storage) and `parseInt(s, 10)` (how it is read back). */
module JsNumber {
  import opened Basics

  predicate IsDigit(c: char)
  {
    '0' <= c <= '9'
  }

  predicate AllDigits(s: string)
  {
    forall i :: 0 <= i < |s| ==> IsDigit(s[i])
  }

  function DigitValue(c: char): nat
    requires IsDigit(c)
  {
    (c as int) - ('0' as int)
  }

  function DigitChar(d: nat): (c: char)
    requires d < 10
    ensures IsDigit(c) && DigitValue(c) == d
  {
    ('0' as int + d) as char
  }

  /** `String(n)` for a non-negative integer: its decimal digits, most
      significant first, without leading zeros. */
  function NatToString(n: nat): (s: string)
    ensures |s| > 0 && AllDigits(s)
    ensures |s| > 1 ==> s[0] != '0'
    ensures n < 10 <==> |s| == 1
  {
    if n < 10 then [DigitChar(n)] else NatToString(n / 10) + [DigitChar(n % 10)]
  }

  /** The number a string of decimal digits denotes. */
  function DigitsValue(ds: string): nat
    requires AllDigits(ds)
  {
    if ds == [] then 0 else DigitsValue(ds[..|ds| - 1]) * 10 + DigitValue(ds[|ds| - 1])
  }

  /** JavaScript's StrWhiteSpaceChar: the WhiteSpace and LineTerminator code
      points that `parseInt` skips before the number. */
  predicate IsJsSpace(c: char)
  {
    || c == '\t' || c == '\U{000B}' || c == '\U{000C}' || c == ' '
    || c == '\U{00A0}' || c == '\U{FEFF}' || c == '\U{1680}'
    || ('\U{2000}' <= c <= '\U{200A}')
    || c == '\U{202F}' || c == '\U{205F}' || c == '\U{3000}'
    || c == '\n' || c == '\r' || c == '\U{2028}' || c == '\U{2029}'
  }

  /** `s` without its leading white space. */
  function TrimStart(s: string): (t: string)
    ensures |t| <= |s| && t == s[|s| - |t|..]
    ensures t == [] || !IsJsSpace(t[0])
    ensures forall i :: 0 <= i < |s| - |t| ==> IsJsSpace(s[i])
  {
    if s != [] && IsJsSpace(s[0]) then TrimStart(s[1..]) else s
  }

  /** The longest prefix of `s` made of decimal digits. */
  function LeadingDigits(s: string): (ds: string)
    ensures StartsWith(s, ds) && AllDigits(ds)
    ensures |ds| == |s| || !IsDigit(s[|ds|])
  {
    if s != [] && IsDigit(s[0]) then [s[0]] + LeadingDigits(s[1..]) else []
  }

  /** `parseInt(s, 10)`: white space is skipped, one sign is accepted, then
      the longest run of decimal digits is read and everything after it is
      ignored; without a digit the result is NaN, modelled as `None`. */
  function ParseInt(s: string): (r: Option<int>)
    ensures s == [] ==> r == None
    ensures (forall i :: 0 <= i < |s| ==> IsJsSpace(s[i])) ==> r == None
    ensures r.Some? ==> exists i :: 0 <= i < |s| && IsDigit(s[i])
  {
    var t := TrimStart(s);
    assert t != [] ==> t[0] == s[|s| - |t|];
    ParseSigned(t)
  }

  /** `parseInt` once the leading white space is gone. */
  function ParseSigned(t: string): (r: Option<int>)
  {
    var negative := |t| > 0 && t[0] == '-';
    var body := if |t| > 0 && (t[0] == '-' || t[0] == '+') then t[1..] else t;
    var ds := LeadingDigits(body);
    var magnitude: int := DigitsValue(ds);
    if ds == [] then None
    else if negative then Some(-magnitude)
    else Some(magnitude)
  }

  lemma {:induction false} DigitsOfNatToString(n: nat)
    ensures DigitsValue(NatToString(n)) == n
  {
    var s := NatToString(n);
    if n >= 10 {
      DigitsOfNatToString(n / 10);
      assert s[..|s| - 1] == NatToString(n / 10);
    }
  }

  lemma {:induction false} LeadingDigitsStopAtNonDigit(ds: string, rest: string)
    requires AllDigits(ds)
    requires rest == [] || !IsDigit(rest[0])
    ensures LeadingDigits(ds + rest) == ds
  {
    if ds != [] {
      assert (ds + rest)[1..] == ds[1..] + rest;
      LeadingDigitsStopAtNonDigit(ds[1..], rest);
    } else {
      assert ds + rest == rest;
    }
  }

  lemma {:induction false} TrimStartSkipsSpace(w: string, t: string)
    requires forall i :: 0 <= i < |w| ==> IsJsSpace(w[i])
    ensures TrimStart(w + t) == TrimStart(t)
  {
    if w != [] {
      assert (w + t)[1..] == w[1..] + t;
      TrimStartSkipsSpace(w[1..], t);
    } else {
      assert w + t == t;
    }
  }

  /** Leading white space does not change what `parseInt` reads. */
  lemma ParseIntSkipsSpace(w: string, t: string)
    requires forall i :: 0 <= i < |w| ==> IsJsSpace(w[i])
    ensures ParseInt(w + t) == ParseInt(t)
  {
    TrimStartSkipsSpace(w, t);
  }

  /** A run of digits followed by anything that is not a digit reads as the
      run's value. */
  lemma ParseIntOfDigits(ds: string, rest: string)
    requires ds != [] && AllDigits(ds)
    requires rest == [] || !IsDigit(rest[0])
    ensures ParseInt(ds + rest) == Some(DigitsValue(ds))
  {
    var u := ds + rest;
    assert u[0] == ds[0];
    assert TrimStart(u) == u by {
      assert IsDigit(u[0]) && !IsJsSpace(u[0]);
    }
    assert ParseSigned(u) == Some(DigitsValue(ds)) by {
      assert u[0] != '-' && u[0] != '+';
      LeadingDigitsStopAtNonDigit(ds, rest);
    }
  }

  /** After white space, a sign followed by digits and a non-digit tail. */
  lemma ParseSignedOfSign(sign: char, ds: string, rest: string)
    requires sign == '-' || sign == '+'
    requires ds != [] && AllDigits(ds)
    requires rest == [] || !IsDigit(rest[0])
    ensures ParseSigned([sign] + (ds + rest))
      == if sign == '-' then Some(-(DigitsValue(ds) as int)) else Some(DigitsValue(ds))
  {
    var u := [sign] + (ds + rest);
    assert u[0] == sign && u[1..] == ds + rest;
    LeadingDigitsStopAtNonDigit(ds, rest);
    assert LeadingDigits(u[1..]) == ds;
    if sign == '-' {
      assert ParseSigned(u) == Some(-(DigitsValue(ds) as int));
    } else {
      assert ParseSigned(u) == Some(DigitsValue(ds));
    }
  }

  /** The sign read behind white space: `w + [sign] + ds + rest` parses as
      the signed text does. */
  lemma ParseIntAfterSpace(w: string, sign: char, ds: string, rest: string)
    requires forall i :: 0 <= i < |w| ==> IsJsSpace(w[i])
    requires sign == '-' || sign == '+'
    ensures ParseInt(w + [sign] + ds + rest) == ParseSigned([sign] + (ds + rest))
  {
    var u := [sign] + (ds + rest);
    Regroup(w, [sign], ds, rest);
    ParseIntOfTrimmed(u);
    ParseIntSkipsSpace(w, u);
  }

  lemma Regroup(a: string, b: string, c: string, d: string)
    ensures a + b + c + d == a + (b + (c + d))
  {
  }

  /** Text that does not begin with white space is read as it stands. */
  lemma ParseIntOfTrimmed(u: string)
    requires u != [] && !IsJsSpace(u[0])
    ensures ParseInt(u) == ParseSigned(u)
  {
    assert TrimStart(u) == u;
  }

  /** One leading sign is read: after white space, `-` followed by digits
      gives the negated value and `+` the value itself. */
  lemma ParseIntSigned(w: string, ds: string, rest: string)
    requires forall i :: 0 <= i < |w| ==> IsJsSpace(w[i])
    requires ds != [] && AllDigits(ds)
    requires rest == [] || !IsDigit(rest[0])
    ensures ParseInt(w + "-" + ds + rest) == Some(-(DigitsValue(ds) as int))
    ensures ParseInt(w + "+" + ds + rest) == Some(DigitsValue(ds))
  {
    ParseIntAfterSpace(w, '-', ds, rest);
    ParseSignedOfSign('-', ds, rest);
    ParseIntAfterSpace(w, '+', ds, rest);
    ParseSignedOfSign('+', ds, rest);
  }

  /** Reading back what `String(n)` wrote yields `n`, even with white space
      in front and non-digit text behind. */
  lemma ParseIntOfNatToString(n: nat, w: string, rest: string)
    requires forall i :: 0 <= i < |w| ==> IsJsSpace(w[i])
    requires rest == [] || !IsDigit(rest[0])
    ensures ParseInt(w + NatToString(n) + rest) == Some(n)
  {
    var s := NatToString(n);
    assert w + s + rest == w + (s + rest);
    ParseIntSkipsSpace(w, s + rest);
    ParseIntOfDigits(s, rest);
    DigitsOfNatToString(n);
  }

  /** The plain round trip: `parseInt(String(n), 10) == n`. */
  lemma ParseIntRoundTrip(n: nat)
    ensures ParseInt(NatToString(n)) == Some(n)
  {
    ParseIntOfNatToString(n, [], []);
    assert [] + NatToString(n) + [] == NatToString(n);
  }
}

=== FILE: memory_deck.dfy ===
/** Deck construction of the memory game (`buildDeck` in
    src/client/views/Memory.tsx): choose face values from a pool without
    replacement, lay each one down twice, then shuffle with Fisher-Yates.

    `Math.random` is an oracle: every call `Math.floor(Math.random() * n)`
    is answered by the next entry of an index sequence, which must lie in
    `[0, n)` just as the real call always does. The sampling loop and the
    shuffle loop draw from two separate index sequences. */
module MemoryDeck {
  import opened Basics

  /** One card. `face` is the emoji in emoji mode and the image URL in theme
      mode; two cards match when their faces are equal. */
  datatype Card = Card(id: nat, face: string, matched: bool, revealed: bool)

  /** A card image offered by a theme. */
  datatype ThemeCard = ThemeCard(code: string, url: string)

  /** What `/api/themes/:id/images` returned: `face`, the picture on the
      hidden side of every card, and the card images. */
  datatype ThemeAssets = ThemeAssets(face: Option<string>, cards: seq<ThemeCard>)

  /** The answers of the random oracle for one deck. */
  datatype Oracle = Oracle(picks: seq<nat>, swaps: seq<nat>)

  /** The built-in face values, `EMOJIS[i]` for `i` in `[0, 48)`. */
  function EmojiAt(i: nat): char
  {
    match i
    case 0 => '🐶' case 1 => '🐱' case 2 => '🐭' case 3 => '🐹'
    case 4 => '🐰' case 5 => '🦊' case 6 => '🐻' case 7 => '🐼'
    case 8 => '🐨' case 9 => '🐯' case 10 => '🦁' case 11 => '🐮'
    case 12 => '🐷' case 13 => '🐸' case 14 => '🐵' case 15 => '🐤'
    case 16 => '🐥' case 17 => '🐧' case 18 => '🐦' case 19 => '🦆'
    case 20 => '🦉' case 21 => '🦄' case 22 => '🐝' case 23 => '🦋'
    case 24 => '🌸' case 25 => '🌼' case 26 => '🌻' case 27 => '🍓'
    case 28 => '🍉' case 29 => '🍎' case 30 => '🍌' case 31 => '🍒'
    case 32 => '🍇' case 33 => '🍍' case 34 => '🥕' case 35 => '🌽'
    case 36 => '🚗' case 37 => '🚲' case 38 => '🚀' case 39 => '🛸'
    case 40 => '🎈' case 41 => '🎁' case 42 => '🎨' case 43 => '🎵'
    case 44 => '⚽' case 45 => '🏀' case 46 => '🍪' case 47 => '🍰'
    case _ => ' '
  }

  /** An emoji as a one-character string. */
  function EmojiString(i: nat): string
  {
    [EmojiAt(i)]
  }

  /** `EMOJIS`. */
  const Emojis: seq<string> := MapSeq(EmojiString, Range(48))

  /** Inverse of `EmojiAt`: the position of an emoji in the table. */
  function EmojiRank(c: char): int
  {
    match c
    case '🐶' => 0 case '🐱' => 1 case '🐭' => 2 case '🐹' => 3
    case '🐰' => 4 case '🦊' => 5 case '🐻' => 6 case '🐼' => 7
    case '🐨' => 8 case '🐯' => 9 case '🦁' => 10 case '🐮' => 11
    case '🐷' => 12 case '🐸' => 13 case '🐵' => 14 case '🐤' => 15
    case '🐥' => 16 case '🐧' => 17 case '🐦' => 18 case '🦆' => 19
    case '🦉' => 20 case '🦄' => 21 case '🐝' => 22 case '🦋' => 23
    case '🌸' => 24 case '🌼' => 25 case '🌻' => 26 case '🍓' => 27
    case '🍉' => 28 case '🍎' => 29 case '🍌' => 30 case '🍒' => 31
    case '🍇' => 32 case '🍍' => 33 case '🥕' => 34 case '🌽' => 35
    case '🚗' => 36 case '🚲' => 37 case '🚀' => 38 case '🛸' => 39
    case '🎈' => 40 case '🎁' => 41 case '🎨' => 42 case '🎵' => 43
    case '⚽' => 44 case '🏀' => 45 case '🍪' => 46 case '🍰' => 47
    case _ => -1
  }

  function Faces(deck: seq<Card>): seq<string>
  {
    MapSeq((c: Card) => c.face, deck)
  }

  function Ids(deck: seq<Card>): seq<nat>
  {
    MapSeq((c: Card) => c.id, deck)
  }

  /** Every card is face down and unmatched, as a deck is dealt. */
  predicate Fresh(deck: seq<Card>)
  {
    forall i :: 0 <= i < |deck| ==> !deck[i].matched && !deck[i].revealed
  }

  /** `Math.floor(size / 2)`. */
  function PairsCount(size: nat): (n: nat)
    ensures 2 * n <= size < 2 * n + 2
  {
    size / 2
  }

  /** The emoji pool is used for the emoji theme and whenever the theme's
      assets are missing or list no card. */
  predicate UsesEmojis(themeId: string, assets: Option<ThemeAssets>)
  {
    themeId == "emoji" || assets.None? || |assets.value.cards| == 0
  }

  /** The values a deck is drawn from. */
  function Pool(themeId: string, assets: Option<ThemeAssets>): (pool: seq<string>)
    ensures |pool| > 0
    ensures UsesEmojis(themeId, assets) ==> pool == Emojis
    ensures !UsesEmojis(themeId, assets) ==>
      |pool| == |assets.value.cards| &&
      forall i :: 0 <= i < |pool| ==> pool[i] == assets.value.cards[i].url
  {
    if UsesEmojis(themeId, assets) then Emojis
    else MapSeq((c: ThemeCard) => c.url, assets.value.cards)
  }

  /** The sampling answers fit: the `k`-th pick indexes a pool that has
      already lost `k` values. */
  predicate PicksFit(picks: seq<nat>, poolSize: nat, count: nat)
  {
    count <= |picks| && forall k :: 0 <= k < count ==> picks[k] + k < poolSize
  }

  /** The shuffle answers fit: at loop index `i` (counting down from
      `n - 1`, step `k = n - 1 - i`) the swap partner `j` satisfies
      `0 <= j <= i`. */
  predicate SwapsFit(swaps: seq<nat>, n: nat)
  {
    n - 1 <= |swaps| && forall k :: 0 <= k < n - 1 ==> swaps[k] <= n - 1 - k
  }

  /** The sampling loop: while fewer than `want` values are chosen and the
      pool is not empty, splice the picked value out of the pool and push it. */
  function Sample(available: seq<string>, want: nat, picks: seq<nat>): (chosen: seq<string>)
    requires PicksFit(picks, |available|, Min(want, |available|))
    ensures |chosen| == Min(want, |available|)
    ensures multiset(chosen) <= multiset(available)
    decreases want
  {
    if want == 0 || |available| == 0 then []
    else
      var idx := picks[0];
      var rest := available[..idx] + available[idx + 1..];
      assert PicksFit(picks[1..], |rest|, Min(want - 1, |rest|)) by {
        forall k | 0 <= k < Min(want - 1, |rest|)
          ensures picks[1..][k] + k < |rest|
        {
          assert picks[1..][k] == picks[k + 1];
        }
      }
      assert available == available[..idx] + [available[idx]] + available[idx + 1..];
      [available[idx]] + Sample(rest, want - 1, picks[1..])
  }

  /** `chosen.flatMap(e => [e, e])`: each value laid down twice, side by side. */
  function Pairs(chosen: seq<string>): (faces: seq<string>)
    ensures |faces| == 2 * |chosen|
    ensures forall i :: 0 <= i < |chosen| ==> faces[2 * i] == chosen[i] && faces[2 * i + 1] == chosen[i]
    ensures multiset(faces) == multiset(chosen) + multiset(chosen)
  {
    if chosen == [] then []
    else
      assert chosen == [chosen[0]] + chosen[1..];
      [chosen[0], chosen[0]] + Pairs(chosen[1..])
  }

  /** `faces.map((e, i) => ({ id: i, emoji: e, matched: false, revealed: false }))`. */
  function Deal(faces: seq<string>): (deck: seq<Card>)
    ensures Faces(deck) == faces
    ensures Ids(deck) == Range(|faces|)
    ensures Fresh(deck)
  {
    seq(|faces|, i requires 0 <= i < |faces| => Card(i, faces[i], false, false))
  }

  /** The Fisher-Yates loop: for `i` from `n - 1` down to 1, swap position
      `i` with the oracle's `j` in `[0, i]`. The result is a permutation of
      the input, so the bag of faces and the bag of ids are kept. */
  method Shuffle(input: seq<Card>, swaps: seq<nat>) returns (deck: seq<Card>)
    requires SwapsFit(swaps, |input|)
    ensures |deck| == |input|
    ensures multiset(deck) == multiset(input)
    ensures multiset(Faces(deck)) == multiset(Faces(input))
    ensures multiset(Ids(deck)) == multiset(Ids(input))
  {
    deck := input;
    var i := |deck| - 1;
    while i > 0
      invariant -1 <= i < |input|
      invariant |deck| == |input|
      invariant i < 0 ==> |input| == 0
      invariant multiset(deck) == multiset(input)
    {
      var k := |input| - 1 - i;
      assert 0 <= k < |input| - 1;
      var j := swaps[k];
      deck := deck[i := deck[j]][j := deck[i]];
      i := i - 1;
    }
    PermutationMaps((c: Card) => c.face, deck, input);
    PermutationMaps((c: Card) => c.id, deck, input);
  }

  /** Every value of a distinct pool that made it into the deck lies on
      exactly two cards. */
  lemma {:induction false} EveryFaceTwice(chosen: seq<string>, deck: seq<Card>, i: nat)
    requires Distinct(chosen)
    requires multiset(Faces(deck)) == multiset(chosen) + multiset(chosen)
    requires i < |deck|
    ensures deck[i].face in chosen
    ensures multiset(Faces(deck))[deck[i].face] == 2
  {
    var f := deck[i].face;
    assert Faces(deck)[i] == f;
    assert f in multiset(Faces(deck));
    assert f in chosen;
    DistinctMultiplicity(chosen, f);
  }

  /** `buildDeck`: pick the pool, sample `min(pairsCount, |pool|)` values,
      pair them, deal them with ids `0..n-1` and shuffle. */
  method BuildDeck(size: nat, themeId: string, assets: Option<ThemeAssets>, oracle: Oracle)
    returns (chosen: seq<string>, deck: seq<Card>)
    requires PicksFit(oracle.picks, |Pool(themeId, assets)|, Min(PairsCount(size), |Pool(themeId, assets)|))
    requires SwapsFit(oracle.swaps, 2 * Min(PairsCount(size), |Pool(themeId, assets)|))
    ensures |chosen| == Min(PairsCount(size), |Pool(themeId, assets)|)
    ensures multiset(chosen) <= multiset(Pool(themeId, assets))
    ensures Distinct(Pool(themeId, assets)) ==> Distinct(chosen)
    ensures |deck| == 2 * |chosen|
    ensures multiset(Faces(deck)) == multiset(chosen) + multiset(chosen)
    ensures multiset(Ids(deck)) == multiset(Range(|deck|))
    ensures Fresh(deck)
    ensures Distinct(Pool(themeId, assets)) ==>
      forall i :: 0 <= i < |deck| ==> deck[i].face in chosen && multiset(Faces(deck))[deck[i].face] == 2
    ensures UsesEmojis(themeId, assets) && size % 2 == 0 && size <= 2 * |Emojis| ==> |deck| == size
  {
    var pool := Pool(themeId, assets);
    chosen := Sample(pool, PairsCount(size), oracle.picks);
    if Distinct(pool) {
      SubBagOfDistinct(chosen, pool);
    }
    var dealt := Deal(Pairs(chosen));
    deck := Shuffle(dealt, oracle.swaps);
    assert Fresh(deck) by {
      forall i | 0 <= i < |deck| ensures !deck[i].matched && !deck[i].revealed {
        assert deck[i] in multiset(dealt);
      }
    }
    if Distinct(pool) {
      forall i | 0 <= i < |deck|
        ensures deck[i].face in chosen && multiset(Faces(deck))[deck[i].face] == 2
      {
        EveryFaceTwice(chosen, deck, i);
      }
    }
    if UsesEmojis(themeId, assets) && size % 2 == 0 && size <= 2 * |Emojis| {
      assert |pool| == 48;
      assert |deck| == size by {
        var n := PairsCount(size);
        assert size == 2 * (size / 2);
        assert n == size / 2;
      }
    }
  }

  lemma EmojiRankInverts(i: nat)
    requires i < 48
    ensures EmojiRank(EmojiAt(i)) == i
  {
  }

  /** The built-in pool offers 48 different values. */
  lemma EmojisDistinct()
    ensures |Emojis| == 48
    ensures Distinct(Emojis)
  {
    var es := Emojis;
    forall i, j | 0 <= i < j < |es| ensures es[i] != es[j] {
      EmojiRankInverts(i);
      EmojiRankInverts(j);
      assert es[i] == [EmojiAt(i)] && es[j] == [EmojiAt(j)];
    }
  }
}

=== FILE: memory_game.dfy ===
/** The turn state machine of the memory game (src/client/views/Memory.tsx):
    a click reveals a card (`onCardClick`), the second reveal locks the board
    until the delayed callback resolves the pair (`Resolve`, the body of the
    700 ms `setTimeout`), matched pairs score for the current player and a
    mismatch passes the turn. */
module MemoryGame {
  import opened Basics
  import opened MemoryDeck

  datatype Player = One | Two

  function Other(p: Player): (q: Player)
    ensures q != p
  {
    if p == One then Two else One
  }

  /** The component state the turn logic reads and writes. */
  datatype Session = Session(
    cards: seq<Card>,
    selection: seq<nat>,
    busy: bool,
    player: Player,
    p1Pairs: nat,
    p2Pairs: nat)

  /** The pairs credited to `p`. */
  function Score(s: Session, p: Player): nat
  {
    if p == One then s.p1Pairs else s.p2Pairs
  }

  /** Face up but not yet matched: the cards of the pending comparison. */
  predicate Pending(c: Card)
  {
    c.revealed && !c.matched
  }

  function PendingIndices(cards: seq<Card>): set<nat>
  {
    set i: nat | i < |cards| && Pending(cards[i])
  }

  function MatchedIndices(cards: seq<Card>): set<nat>
  {
    set i: nat | i < |cards| && cards[i].matched
  }

  /** The state every reachable session is in: at most two cards are
      selected, the board is locked exactly while two are, the selection
      names precisely the face-up unmatched cards, matched cards stay face up,
      and the two scores account for every matched card. */
  predicate Inv(s: Session)
  {
    && |s.selection| <= 2
    && (s.busy <==> |s.selection| == 2)
    && (forall k :: 0 <= k < |s.selection| ==> s.selection[k] < |s.cards|)
    && Distinct(s.selection)
    && PendingIndices(s.cards) == Elems(s.selection)
    && (forall i :: 0 <= i < |s.cards| && s.cards[i].matched ==> s.cards[i].revealed)
    && 2 * (s.p1Pairs + s.p2Pairs) == |MatchedIndices(s.cards)|
  }

  /** `resetGame` followed by the deck-building effect: zero scores, player 1,
      nothing selected, board unlocked, and the freshly built deck. */
  function Reset(deck: seq<Card>): (s: Session)
    ensures s.cards == deck
    ensures s.selection == [] && !s.busy && s.player == One && s.p1Pairs == 0 && s.p2Pairs == 0
    ensures Fresh(deck) ==> Inv(s)
  {
    var s := Session(deck, [], false, One, 0, 0);
    assert Fresh(deck) ==> PendingIndices(deck) == {} && MatchedIndices(deck) == {};
    s
  }

  /** The clicks `onCardClick` returns from without effect: the board is
      locked, there is no such card, or it is already matched or face up. */
  predicate Ignored(s: Session, index: int)
  {
    s.busy || !(0 <= index < |s.cards|) || s.cards[index].matched || s.cards[index].revealed
  }

  /** `onCardClick(index)` up to scheduling the timer. */
  function Reveal(s: Session, index: int): (t: Session)
    ensures Ignored(s, index) <==> t == s
    ensures t.player == s.player && t.p1Pairs == s.p1Pairs && t.p2Pairs == s.p2Pairs
    ensures Faces(t.cards) == Faces(s.cards)
    ensures MatchedIndices(t.cards) == MatchedIndices(s.cards)
    ensures !Ignored(s, index) ==>
      && PendingIndices(t.cards) == PendingIndices(s.cards) + {index}
      && t.selection == s.selection + [index]
      && (t.busy <==> |t.selection| == 2)
      && (forall i :: 0 <= i < |s.cards| && i != index ==> t.cards[i] == s.cards[i])
      && |t.cards| == |s.cards| && t.cards[index] == s.cards[index].(revealed := true)
  {
    if Ignored(s, index) then s
    else
      var cards := s.cards[index := s.cards[index].(revealed := true)];
      var selection := s.selection + [index];
      assert cards[index] != s.cards[index];
      s.(cards := cards, selection := selection, busy := |selection| == 2)
  }

  /** A comparison is pending: the board is locked on two selected cards. */
  predicate Resolving(s: Session)
  {
    s.busy && |s.selection| == 2 && s.selection[0] < |s.cards| && s.selection[1] < |s.cards|
  }

  /** The two selected cards show the same face. */
  predicate IsMatch(s: Session)
    requires Resolving(s)
  {
    s.cards[s.selection[0]].face == s.cards[s.selection[1]].face
  }

  /** The timer callback: a match marks both cards matched and credits the
      current player, who keeps the turn; a mismatch turns both cards face
      down and passes the turn. Either way the selection is cleared and the
      board unlocked. */
  function Resolve(s: Session): (t: Session)
    requires Resolving(s)
    ensures !t.busy && t.selection == []
    ensures Faces(t.cards) == Faces(s.cards)
    ensures forall i :: 0 <= i < |s.cards| && i != s.selection[0] && i != s.selection[1] ==> t.cards[i] == s.cards[i]
    ensures t.player == s.player <==> IsMatch(s)
    ensures Score(t, Other(s.player)) == Score(s, Other(s.player))
    ensures IsMatch(s) ==>
      && Score(t, s.player) == Score(s, s.player) + 1
      && t.cards[s.selection[0]].matched && t.cards[s.selection[1]].matched
    ensures !IsMatch(s) ==>
      && Score(t, s.player) == Score(s, s.player)
      && !t.cards[s.selection[0]].revealed && !t.cards[s.selection[1]].revealed
      && MatchedIndices(t.cards) == MatchedIndices(s.cards)
  {
    var a, b := s.selection[0], s.selection[1];
    if IsMatch(s) then
      var cards := s.cards[a := s.cards[a].(matched := true)];
      var cards := cards[b := cards[b].(matched := true)];
      if s.player == One then s.(cards := cards, p1Pairs := s.p1Pairs + 1, busy := false, selection := [])
      else s.(cards := cards, p2Pairs := s.p2Pairs + 1, busy := false, selection := [])
    else
      var cards := s.cards[a := s.cards[a].(revealed := false)];
      var cards := cards[b := cards[b].(revealed := false)];
      assert MatchedIndices(cards) == MatchedIndices(s.cards);
      s.(cards := cards, busy := false, player := Other(s.player), selection := [])
  }

  /** `allMatched`: a non-empty board with every card matched. Such a board
      has no card waiting for a comparison. */
  predicate GameOver(s: Session)
    ensures GameOver(s) ==> |s.cards| > 0 && PendingIndices(s.cards) == {} && MatchedIndices(s.cards) == Below(|s.cards|)
  {
    |s.cards| > 0 && forall i :: 0 <= i < |s.cards| ==> s.cards[i].matched
  }

  datatype Verdict = Tie | Wins(winner: Player)

  /** The game-over text: a tie on equal counts, otherwise the player with
      more pairs wins. */
  function VerdictOf(s: Session): (v: Verdict)
    ensures v == Tie <==> s.p1Pairs == s.p2Pairs
    ensures v.Wins? ==> Score(s, v.winner) > Score(s, Other(v.winner))
  {
    if s.p1Pairs == s.p2Pairs then Tie
    else if s.p1Pairs > s.p2Pairs then Wins(One)
    else Wins(Two)
  }

  lemma RevealPreservesInv(s: Session, index: int)
    requires Inv(s)
    ensures Inv(Reveal(s, index))
  {
    var t := Reveal(s, index);
    if !Ignored(s, index) {
      assert index !in Elems(s.selection) by {
        assert index !in PendingIndices(s.cards);
      }
      assert Elems(t.selection) == Elems(s.selection) + {index};
      assert Distinct(t.selection) by {
        forall i, j | 0 <= i < j < |t.selection| ensures t.selection[i] != t.selection[j] {
          assert t.selection[i] == s.selection[i];
          assert s.selection[i] in Elems(s.selection);
        }
      }
    }
  }

  /** Under the invariant a locked board holds two different face-up,
      unmatched cards. */
  lemma LockedPair(s: Session)
    requires Inv(s) && s.busy
    ensures Resolving(s)
    ensures s.selection[0] != s.selection[1]
    ensures Pending(s.cards[s.selection[0]]) && Pending(s.cards[s.selection[1]])
  {
    var a, b := s.selection[0], s.selection[1];
    assert a in Elems(s.selection) && b in Elems(s.selection);
  }

  /** After a resolution nothing is pending. */
  lemma ResolveClearsPending(s: Session)
    requires Inv(s) && s.busy
    ensures Resolving(s)
    ensures PendingIndices(Resolve(s).cards) == {}
  {
    LockedPair(s);
    var t := Resolve(s);
    var a, b := s.selection[0], s.selection[1];
    assert Elems(s.selection) == {a, b};
    forall i | 0 <= i < |t.cards| ensures !Pending(t.cards[i]) {
      if i != a && i != b {
        assert i !in PendingIndices(s.cards);
      }
    }
  }

  /** A match adds exactly the two selected cards to the matched ones. */
  lemma MatchAddsPair(s: Session)
    requires Inv(s) && s.busy
    ensures Resolving(s)
    ensures IsMatch(s) ==>
      |MatchedIndices(Resolve(s).cards)| == |MatchedIndices(s.cards)| + 2
    ensures !IsMatch(s) ==> MatchedIndices(Resolve(s).cards) == MatchedIndices(s.cards)
  {
    LockedPair(s);
    if IsMatch(s) {
      var t := Resolve(s);
      var a, b := s.selection[0], s.selection[1];
      assert MatchedIndices(t.cards) == MatchedIndices(s.cards) + {a, b};
      assert a !in MatchedIndices(s.cards) && b !in MatchedIndices(s.cards);
    }
  }

  lemma ResolvePreservesInv(s: Session)
    requires Inv(s) && s.busy
    ensures Resolving(s)
    ensures Inv(Resolve(s))
  {
    LockedPair(s);
    ResolveClearsPending(s);
    MatchAddsPair(s);
    var t := Resolve(s);
    assert forall i :: 0 <= i < |t.cards| && t.cards[i].matched ==> t.cards[i].revealed;
    assert 2 * (t.p1Pairs + t.p2Pairs) == |MatchedIndices(t.cards)|;
  }

  /** At no point are more than two cards face up and unmatched. */
  lemma AtMostTwoPending(s: Session)
    requires Inv(s)
    ensures |PendingIndices(s.cards)| <= |s.selection| <= 2
  {
    ElemsBound(s.selection);
  }

  /** A finished board has an even number of cards and the two scores
      together count all its pairs. */
  lemma FinalScore(s: Session)
    requires Inv(s) && GameOver(s)
    ensures |s.cards| % 2 == 0
    ensures s.p1Pairs + s.p2Pairs == |s.cards| / 2
  {
    var n := |s.cards|;
    assert 2 * (s.p1Pairs + s.p2Pairs) == n by {
      var m := MatchedIndices(s.cards);
      assert m == Below(n) by {
        forall i | i in Below(n) ensures i in m {
          assert s.cards[i].matched;
        }
      }
    }
    ModUnique(n, 2, s.p1Pairs + s.p2Pairs, 0);
  }

  /** Once every card is matched, no click changes anything. */
  lemma GameOverIgnoresClicks(s: Session, index: int)
    requires GameOver(s)
    ensures Reveal(s, index) == s
  {
  }

  /** One turn from an unlocked board with nothing selected: two valid
      clicks on different cards, then the timer. */
  lemma TurnOfTwoClicks(s: Session, a: nat, b: nat)
    requires Inv(s) && s.selection == []
    requires a < |s.cards| && b < |s.cards| && a != b
    requires !s.cards[a].matched && !s.cards[a].revealed
    requires !s.cards[b].matched && !s.cards[b].revealed
    ensures Resolving(Reveal(Reveal(s, a), b))
    ensures var t := Resolve(Reveal(Reveal(s, a), b));
      && Inv(t)
      && (s.cards[a].face == s.cards[b].face ==>
            t.cards[a].matched && t.cards[b].matched && t.player == s.player
            && Score(t, s.player) == Score(s, s.player) + 1)
      && (s.cards[a].face != s.cards[b].face ==>
            !t.cards[a].revealed && !t.cards[b].revealed && t.player == Other(s.player)
            && t.p1Pairs == s.p1Pairs && t.p2Pairs == s.p2Pairs)
  {
    var s1 := Reveal(s, a);
    RevealPreservesInv(s, a);
    var s2 := Reveal(s1, b);
    RevealPreservesInv(s1, b);
    assert s2.selection == [a, b];
    ResolvePreservesInv(s2);
    assert s2.cards[a].face == s.cards[a].face by {
      assert Faces(s2.cards)[a] == Faces(s.cards)[a];
    }
    assert s2.cards[b].face == s.cards[b].face by {
      assert Faces(s2.cards)[b] == Faces(s1.cards)[b];
    }
  }

  /** What the user and the timer can do. `Timer` only fires while a
      comparison is pending; `NewGame` carries the deck the rebuild effect
      produced. */
  datatype Event = Click(index: int) | Timer | NewGame(deck: seq<Card>)

  /** One event. On a game in the invariant the timer acts exactly while
      the board is locked; a new game cancels any pending comparison. */
  function Step(s: Session, e: Event): (r: Session)
    ensures Inv(s) && e.Timer? && s.busy ==> Resolving(s) && r == Resolve(s)
    ensures Inv(s) && e.Timer? && !s.busy ==> r == s
    ensures e.NewGame? ==> r == Reset(e.deck)
    ensures e.Click? ==> r == Reveal(s, e.index)
  {
    match e
    case Click(i) => Reveal(s, i)
    case Timer => if Resolving(s) then Resolve(s) else s
    case NewGame(deck) => Reset(deck)
  }

  /** A new game cancels a pending comparison: a timer firing after it
      leaves the fresh board, its zero scores and player 1 alone. */
  lemma NewGameCancelsTimer(s: Session, deck: seq<Card>)
    ensures Step(Step(s, NewGame(deck)), Timer) == Reset(deck)
    ensures var t := Step(Step(s, NewGame(deck)), Timer);
      t.p1Pairs == 0 && t.p2Pairs == 0 && t.player == One && (Fresh(deck) ==> Inv(t))
  {
  }

  function Run(s: Session, events: seq<Event>): Session
    decreases |events|
  {
    if events == [] then s else Run(Step(s, events[0]), events[1..])
  }

  predicate FreshDecks(events: seq<Event>)
  {
    forall k :: 0 <= k < |events| && events[k].NewGame? ==> Fresh(events[k].deck)
  }

  /** Every session reachable by clicks, timer firings and new games keeps
      the invariant, so never shows more than two unresolved cards. */
  lemma {:induction false} RunPreservesInv(s: Session, events: seq<Event>)
    requires Inv(s) && FreshDecks(events)
    ensures Inv(Run(s, events))
    ensures |PendingIndices(Run(s, events).cards)| <= 2
    decreases |events|
  {
    if events == [] {
      AtMostTwoPending(s);
    } else {
      var s' := Step(s, events[0]);
      match events[0] {
        case Click(i) => RevealPreservesInv(s, i);
        case Timer => if s.busy { ResolvePreservesInv(s); }
        case NewGame(deck) => assert Fresh(deck);
      }
      assert FreshDecks(events[1..]) by {
        forall k | 0 <= k < |events[1..]| && events[1..][k].NewGame?
          ensures Fresh(events[1..][k].deck)
        {
          assert events[1..][k] == events[k + 1];
        }
      }
      RunPreservesInv(s', events[1..]);
    }
  }
}

=== FILE: memory_timer.dfy ===
/** The delayed callback of `onCardClick` (src/client/views/Memory.tsx) as
    written: the second click schedules a closure that captured the card
    array, the two positions, the outcome and the player of that moment, and
    nothing cancels it. When no new game starts while it is pending it does
    exactly what `MemoryGame.Resolve` does; when one does, it writes the old
    game's cards over the new deck. `MemoryGame.Step` models the intended
    behaviour, where a new game cancels the pending comparison. */
module MemoryTimer {
  import opened Basics
  import opened MemoryDeck
  import opened MemoryGame

  /** What the scheduled closure captured. */
  datatype PendingTimer = PendingTimer(
    snapshot: seq<Card>,
    first: nat,
    second: nat,
    isMatch: bool,
    scorer: Player)

  /** The component state together with the callbacks waiting to fire, in
      the order they were scheduled. Each second click schedules one more,
      and nothing removes a callback but its own firing, so after a new game
      two can be pending at once. */
  datatype Board = Board(s: Session, timers: seq<PendingTimer>)

  /** `onCardClick` as written: the reveal, and on the second card one more
      closure over the new card array. */
  function ClickAsWritten(b: Board, index: int): (r: Board)
    ensures r.s == Reveal(b.s, index)
    ensures |b.timers| <= |r.timers| <= |b.timers| + 1 && r.timers[..|b.timers|] == b.timers
    ensures |r.timers| > |b.timers| <==> !Ignored(b.s, index) && r.s.busy
    ensures |r.timers| > |b.timers| ==>
      r.timers[|b.timers|].snapshot == r.s.cards && r.timers[|b.timers|].scorer == b.s.player
  {
    var t := Reveal(b.s, index);
    if !Ignored(b.s, index) && |t.selection| == 2 then
      var x, y := t.selection[0], t.selection[1];
      var isMatch := x < |t.cards| && y < |t.cards| && t.cards[x].face == t.cards[y].face;
      Board(t, b.timers + [PendingTimer(t.cards, x, y, isMatch, b.s.player)])
    else Board(t, b.timers)
  }

  /** The body of one callback as written: it rebuilds the cards from its
      snapshot, credits the player captured at click time and flips the
      current player on a mismatch. */
  function Callback(p: PendingTimer, s: Session): (r: Session)
    ensures !r.busy && r.selection == []
    // In range: the snapshot comes back, with only the two captured
    // positions changed.
    ensures p.first < |p.snapshot| && p.second < |p.snapshot| ==>
      && |r.cards| == |p.snapshot|
      && (forall i :: 0 <= i < |r.cards| && i != p.first && i != p.second ==> r.cards[i] == p.snapshot[i])
    // A match marks both cards and credits the captured scorer, whoever
    // plays now; the turn stays.
    ensures p.first < |p.snapshot| && p.second < |p.snapshot| && p.isMatch ==>
      && r.cards[p.first] == p.snapshot[p.first].(matched := true)
      && r.cards[p.second] == p.snapshot[p.second].(matched := true)
      && Score(r, p.scorer) == Score(s, p.scorer) + 1
      && Score(r, Other(p.scorer)) == Score(s, Other(p.scorer))
      && r.player == s.player
    // A mismatch hides both cards and passes the turn from whoever plays
    // now; no score changes.
    ensures p.first < |p.snapshot| && p.second < |p.snapshot| && !p.isMatch ==>
      && r.cards[p.first] == p.snapshot[p.first].(revealed := false)
      && r.cards[p.second] == p.snapshot[p.second].(revealed := false)
      && r.player == Other(s.player)
      && r.p1Pairs == s.p1Pairs && r.p2Pairs == s.p2Pairs
    // Out of range: only the lock and the selection change.
    ensures !(p.first < |p.snapshot| && p.second < |p.snapshot|) ==>
      r.cards == s.cards && r.player == s.player && r.p1Pairs == s.p1Pairs && r.p2Pairs == s.p2Pairs
  {
    if p.first < |p.snapshot| && p.second < |p.snapshot| then
      if p.isMatch then
        var cards := p.snapshot[p.first := p.snapshot[p.first].(matched := true)];
        var cards := cards[p.second := cards[p.second].(matched := true)];
        if p.scorer == One then s.(cards := cards, p1Pairs := s.p1Pairs + 1, busy := false, selection := [])
        else s.(cards := cards, p2Pairs := s.p2Pairs + 1, busy := false, selection := [])
      else
        var cards := p.snapshot[p.first := p.snapshot[p.first].(revealed := false)];
        var cards := cards[p.second := cards[p.second].(revealed := false)];
        s.(cards := cards, busy := false, player := Other(s.player), selection := [])
    else
      // A stale position can only come from a state outside `Inv`; the
      // board is then just unlocked.
      s.(busy := false, selection := [])
  }

  /** The earliest pending callback fires (equal delays fire in the order
      they were scheduled). */
  function FireAsWritten(b: Board): (r: Board)
    ensures |b.timers| == 0 ==> r == b
    ensures |b.timers| > 0 ==> r.timers == b.timers[1..] && !r.s.busy && r.s.selection == []
  {
    if |b.timers| == 0 then b else Board(Callback(b.timers[0], b.s), b.timers[1..])
  }

  /** `resetGame` and the rebuild as written: the scheduled callbacks stay. */
  function NewGameAsWritten(b: Board, deck: seq<Card>): (r: Board)
    ensures r.s == Reset(deck) && r.timers == b.timers
  {
    Board(Reset(deck), b.timers)
  }

  /** The pending callback, if any, agrees with the state it will act on. */
  predicate Coherent(b: Board)
  {
    && |b.timers| <= 1
    && (|b.timers| == 1 <==> b.s.busy)
    && (|b.timers| == 1 ==>
          && Resolving(b.s)
          && b.timers[0].snapshot == b.s.cards
          && b.timers[0].first == b.s.selection[0]
          && b.timers[0].second == b.s.selection[1]
          && b.timers[0].isMatch == IsMatch(b.s)
          && b.timers[0].scorer == b.s.player)
  }

  /** Clicks keep the closure in step with the state. */
  lemma ClickKeepsCoherent(b: Board, index: int)
    requires Inv(b.s) && Coherent(b)
    ensures Coherent(ClickAsWritten(b, index))
  {
    RevealPreservesInv(b.s, index);
  }

  /** Without a new game in between, the callback as written is the
      resolution step of the model. */
  lemma FireAgreesWhenCoherent(b: Board)
    requires Coherent(b) && |b.timers| > 0
    ensures FireAsWritten(b) == Board(Resolve(b.s), [])
  {
  }

  /** A new game during the 700 ms window breaks the link. */
  lemma NewGameBreaksCoherence(b: Board, deck: seq<Card>)
    requires |b.timers| > 0
    ensures !Coherent(NewGameAsWritten(b, deck))
  {
  }

  /** On a board of any size: when a new game starts while a matching pair
      waits for its callback, the callback puts back the old cards with that
      pair matched and gives the new game a score of 1 to 0. When the pair
      was the last one, the new game opens on the game-over verdict for the
      player who found it; when other pairs were already matched, the score
      no longer accounts for them. */
  lemma StaleMatchAfterNewGame(b: Board, deck: seq<Card>)
    requires Inv(b.s) && Coherent(b) && b.s.busy && IsMatch(b.s)
    ensures var r := FireAsWritten(NewGameAsWritten(b, deck));
      && r.s.cards == Resolve(b.s).cards
      && Score(r.s, b.s.player) == 1 && Score(r.s, Other(b.s.player)) == 0
      && (GameOver(Resolve(b.s)) ==> GameOver(r.s) && VerdictOf(r.s) == Wins(b.s.player))
      && (|MatchedIndices(Resolve(b.s).cards)| > 2 ==> !Inv(r.s))
  {
    var r := FireAsWritten(NewGameAsWritten(b, deck));
    assert r.s == Callback(b.timers[0], Reset(deck));
    assert r.s.cards == Resolve(b.s).cards;
  }

  /** The mismatch counterpart: when a new game starts while a mismatched
      pair waits, the callback puts back the old cards with that pair face
      down and hands the new game's first turn to player 2. The scores stay
      0 to 0, so a board on which pairs were already matched no longer
      satisfies the invariant. */
  lemma StaleMismatchAfterNewGame(b: Board, deck: seq<Card>)
    requires Inv(b.s) && Coherent(b) && b.s.busy && !IsMatch(b.s)
    ensures var r := FireAsWritten(NewGameAsWritten(b, deck));
      && r.s.cards == Resolve(b.s).cards
      && r.s.player == Two
      && r.s.p1Pairs == 0 && r.s.p2Pairs == 0
      && (MatchedIndices(Resolve(b.s).cards) != {} ==> !Inv(r.s))
  {
    var r := FireAsWritten(NewGameAsWritten(b, deck));
    assert r.s == Callback(b.timers[0], Reset(deck));
    assert r.s.cards == Resolve(b.s).cards;
  }

  /** Four cards, two pairs, and the boards of the counterexample below. */
  const Deck4: seq<Card> := [
    Card(0, "A", false, false), Card(1, "A", false, false),
    Card(2, "B", false, false), Card(3, "B", false, false)]

  const FirstUp: seq<Card> := Deck4[0 := Card(0, "A", false, true)]
  const PairUp: seq<Card> := FirstUp[1 := Card(1, "A", false, true)]
  const PairMatched: seq<Card> := PairUp[0 := Card(0, "A", true, true)][1 := Card(1, "A", true, true)]
  const ThirdUp: seq<Card> := PairMatched[2 := Card(2, "B", false, true)]
  const SecondPairUp: seq<Card> := ThirdUp[3 := Card(3, "B", false, true)]
  const AllMatched: seq<Card> := SecondPairUp[2 := Card(2, "B", true, true)][3 := Card(3, "B", true, true)]

  /** The callbacks of the counterexamples: for the first pair, and for the
      second pair of the first game. */
  const PairT: PendingTimer := PendingTimer(PairUp, 0, 1, true, One)
  const StaleT: PendingTimer := PendingTimer(SecondPairUp, 2, 3, true, One)

  /** Player 1 turns up the first pair, which matches. */
  lemma FirstTurn()
    ensures ClickAsWritten(Board(Reset(Deck4), []), 0) == Board(Session(FirstUp, [0], false, One, 0, 0), [])
    ensures ClickAsWritten(Board(Session(FirstUp, [0], false, One, 0, 0), []), 1)
      == Board(Session(PairUp, [0, 1], true, One, 0, 0), [PairT])
    ensures FireAsWritten(Board(Session(PairUp, [0, 1], true, One, 0, 0), [PairT]))
      == Board(Session(PairMatched, [], false, One, 1, 0), [])
  {
  }

  /** Player 1 turns up the second pair, which matches too. */
  lemma SecondTurn()
    ensures ClickAsWritten(Board(Session(PairMatched, [], false, One, 1, 0), []), 2)
      == Board(Session(ThirdUp, [2], false, One, 1, 0), [])
    ensures ClickAsWritten(Board(Session(ThirdUp, [2], false, One, 1, 0), []), 3)
      == Board(Session(SecondPairUp, [2, 3], true, One, 1, 0), [StaleT])
  {
  }

  /** A new game, then the old callback. */
  lemma StaleFire()
    ensures FireAsWritten(NewGameAsWritten(
        Board(Session(SecondPairUp, [2, 3], true, One, 1, 0), [StaleT]), Deck4))
      == Board(Session(AllMatched, [], false, One, 1, 0), [])
  {
  }

  /** The board the stale callback leaves: every card matched, one pair
      credited. */
  lemma StaleBoard()
    ensures var s := Session(AllMatched, [], false, One, 1, 0);
      GameOver(s) && VerdictOf(s) == Wins(One) && !Inv(s)
  {
    var s := Session(AllMatched, [], false, One, 1, 0);
    assert forall i :: 0 <= i < 4 ==> AllMatched[i].matched;
    assert MatchedIndices(AllMatched) == {0, 1, 2, 3};
  }

  /** Player 1 matches the first pair, then the second; within 700 ms of
      the second match a new game starts (another size or theme is picked).
      The callback then puts back the old, fully matched board with one
      pair credited: the new game opens on "Player 1 wins!" and the score
      no longer counts the matched cards. */
  lemma StaleTimerAfterNewGame()
    ensures var b0 := Board(Reset(Deck4), []);
      var b1 := FireAsWritten(ClickAsWritten(ClickAsWritten(b0, 0), 1));
      var b2 := ClickAsWritten(ClickAsWritten(b1, 2), 3);
      var b3 := FireAsWritten(NewGameAsWritten(b2, Deck4));
      && GameOver(b3.s)
      && b3.s.p1Pairs + b3.s.p2Pairs == 1
      && VerdictOf(b3.s) == Wins(One)
      && !Inv(b3.s)
  {
    FirstTurn();
    SecondTurn();
    StaleFire();
    StaleBoard();
  }

  /** After the new game, player 1 turns up cards 0 and 1 before the old
      callback fired: a second callback is scheduled beside the first. */
  lemma NewGameThenPair()
    ensures var b := NewGameAsWritten(Board(Session(SecondPairUp, [2, 3], true, One, 1, 0), [StaleT]), Deck4);
      ClickAsWritten(ClickAsWritten(b, 0), 1)
        == Board(Session(PairUp, [0, 1], true, One, 0, 0),
                 [StaleT, PairT])
  {
    assert ClickAsWritten(Board(Reset(Deck4), [StaleT]), 0)
      == Board(Session(FirstUp, [0], false, One, 0, 0), [StaleT]);
  }

  /** Both callbacks fire, the old one first. */
  lemma BothFire()
    ensures var b := Board(Session(PairUp, [0, 1], true, One, 0, 0),
                 [StaleT, PairT]);
      FireAsWritten(FireAsWritten(b)) == Board(Session(PairMatched, [], false, One, 2, 0), [])
  {
    var b := Board(Session(PairUp, [0, 1], true, One, 0, 0),
      [StaleT, PairT]);
    assert FireAsWritten(b) == Board(Session(AllMatched, [], false, One, 1, 0), [PairT]);
  }

  /** The board both callbacks leave: one pair matched, two credited. */
  lemma DoubleCreditBoard()
    ensures var s := Session(PairMatched, [], false, One, 2, 0);
      |MatchedIndices(s.cards)| == 2 && !Inv(s)
  {
    assert MatchedIndices(PairMatched) == {0, 1};
  }

  /** Two callbacks can be pending at once: from the board of the second
      match (as `SecondTurn` reaches it), a new game and two quick clicks
      schedule another callback before the first fired. Once both have
      fired the new game credits two pairs for the one pair on its board. */
  lemma TwoCallbacksPending()
    ensures var b3 := ClickAsWritten(ClickAsWritten(NewGameAsWritten(
        Board(Session(SecondPairUp, [2, 3], true, One, 1, 0), [StaleT]), Deck4), 0), 1);
      var b4 := FireAsWritten(FireAsWritten(b3));
      && |b3.timers| == 2
      && b4.s.p1Pairs == 2 && b4.s.p2Pairs == 0
      && |MatchedIndices(b4.s.cards)| == 2
      && !Inv(b4.s)
  {
    NewGameThenPair();
    BothFire();
    DoubleCreditBoard();
  }
}

=== FILE: paint.dfy ===
/** The tool-state logic of the paint page (src/client/views/Body.tsx):
    the colour palette with its eraser slot, colour and eraser selection,
    brush size and transparency, restoring settings from local storage, the
    rotation to the next background image, the pointer state of a stroke
    with the drawing style it uses, and the two-step clear confirmation.
    Pixels are not modelled: a stroke is described by the marks it asks the
    canvas to draw. */
module Paint {
  import opened Basics
  import opened JsNumber
  import ImageServer

  // ---------------------------------------------------------------- palette

  /** Black, white, grey and the primaries, always first. */
  const FixedColours: seq<string> :=
    ["#000000", "#FFFFFF", "#808080", "#FF0000", "#00FF00", "#0000FF", "#FFFF00"]

  /** The palette has `target` slots. */
  const PaletteSize: nat := 15

  /** `Math.round((360 / needed) * i)`: round-half-up of the exact quotient. */
  function Hue(i: nat, needed: nat): nat
    requires needed > 0
  {
    (720 * i + needed) / (2 * needed)
  }

  function HslColour(hue: nat): string
  {
    "hsl(" + NatToString(hue) + " 85% 55%)"
  }

  /** The `needed` generated colours, evenly spaced around the hue circle. */
  function Generated(needed: nat, i: nat): (gs: seq<string>)
    requires i <= needed
    ensures |gs| == needed - i
    ensures forall k :: 0 <= k < needed - i ==> gs[k] == HslColour(Hue(i + k, needed))
    decreases needed - i
  {
    if i == needed then [] else [HslColour(Hue(i, needed))] + Generated(needed, i + 1)
  }

  /** `colors`: the fixed colours followed by enough generated ones to fill
      the palette. */
  function Palette(): (colours: seq<string>)
    ensures |colours| == PaletteSize && colours[..|FixedColours|] == FixedColours
    ensures forall k :: |FixedColours| <= k < |colours| ==> StartsWith(colours[k], "hsl(")
  {
    var needed := if PaletteSize >= |FixedColours| then PaletteSize - |FixedColours| else 0;
    FixedColours + Generated(needed, 0)
  }

  /** The palette has 15 slots: the seven fixed colours in order, then the
      hues 0, 45, ..., 315 at 85% saturation and 55% lightness. */
  lemma PaletteLayout()
    ensures |Palette()| == PaletteSize
    ensures Palette()[..7] == FixedColours
    ensures forall k :: 0 <= k < 8 ==> Palette()[7 + k] == HslColour(45 * k)
  {
    var gs := Generated(8, 0);
    var p := Palette();
    assert p == FixedColours + gs;
    forall k | 0 <= k < 8 ensures p[7 + k] == HslColour(45 * k) {
      assert p[7 + k] == gs[k];
      HueOfEight(k);
    }
  }

  /** With eight generated colours the hues are exact multiples of 45. */
  lemma HueOfEight(k: nat)
    requires k < 8
    ensures Hue(k, 8) == 45 * k
  {
  }

  /** Different hues give different colour strings. */
  lemma HslColourInjective(a: nat, b: nat)
    requires HslColour(a) == HslColour(b)
    ensures a == b
  {
    var x, y := NatToString(a), NatToString(b);
    assert |x| == |y|;
    assert x == HslColour(a)[4..4 + |x|];
    assert y == HslColour(b)[4..4 + |y|];
    ParseIntRoundTrip(a);
    ParseIntRoundTrip(b);
  }

  /** The fifteen palette colours are all different. */
  lemma PaletteDistinct()
    ensures Distinct(Palette())
  {
    PaletteLayout();
    var p := Palette();
    forall i, j | 0 <= i < j < 15 ensures p[i] != p[j] {
      if j < 7 {
        assert p[i] == FixedColours[i] && p[j] == FixedColours[j];
      } else if i < 7 {
        assert p[i][0] == '#';
        assert p[j] == HslColour(45 * (j - 7));
        assert p[j][0] == 'h';
      } else if p[i] == p[j] {
        assert p[i] == HslColour(45 * (i - 7)) && p[j] == HslColour(45 * (j - 7));
        HslColourInjective(45 * (i - 7), 45 * (j - 7));
      }
    }
  }

  /** What a palette slot does when pressed. */
  datatype PaletteButton = ColourSlot(colour: string) | EraseSlot

  /** The rendered palette: every slot picks its colour except the last,
      which is drawn as the Erase button. */
  function Buttons(colours: seq<string>): (bs: seq<PaletteButton>)
    ensures |bs| == |colours|
  {
    seq(|colours|, i requires 0 <= i < |colours| =>
      if i == |colours| - 1 then EraseSlot else ColourSlot(colours[i]))
  }

  /** Of the fifteen palette colours only the first fourteen can be
      picked: the slot of the last one is the Erase button. */
  lemma LastColourUnavailable(t: Tool, i: nat)
    requires i < PaletteSize
    ensures Press(t, Palette(), i).selected == Some(Palette()[PaletteSize - 1]) ==>
      t.selected == Some(Palette()[PaletteSize - 1])
    ensures i < PaletteSize - 1 ==> Press(t, Palette(), i).selected == Some(Palette()[i])
  {
    PaletteLayout();
    PaletteDistinct();
  }

  // ------------------------------------------------------------ tool state

  /** The drawing settings. `eraserSize` mirrors `eraserSizeRef`, which an
      effect keeps equal to the brush size. */
  datatype Tool = Tool(
    selected: Option<string>,
    erasing: bool,
    brushSize: int,
    eraserSize: int,
    transparency: int)

  /** The settings once the mount effects ran: no colour, brush of 5 px
      (the eraser synced to it), 50% transparency, painting mode. */
  const Initial: Tool := Tool(None, false, 5, 5, 50)

  /** The settings every operation keeps: a positive brush size that the
      eraser shares and a transparency percentage in `[0, 100]`. */
  predicate ValidTool(t: Tool)
  {
    t.brushSize > 0 && t.eraserSize == t.brushSize && 0 <= t.transparency <= 100
  }

  /** `onPickColor`: select the colour and leave eraser mode. */
  function PickColour(t: Tool, colour: string): (r: Tool)
    ensures r.selected == Some(colour) && !r.erasing
    ensures r.brushSize == t.brushSize && r.eraserSize == t.eraserSize && r.transparency == t.transparency
  {
    t.(selected := Some(colour), erasing := false)
  }

  /** The Erase button: enter eraser mode, keeping the selected colour. */
  function Erase(t: Tool): (r: Tool)
    ensures r.erasing
    ensures r.selected == t.selected
    ensures r.brushSize == t.brushSize && r.eraserSize == t.eraserSize && r.transparency == t.transparency
  {
    t.(erasing := true)
  }

  /** Pressing palette slot `i`. */
  function Press(t: Tool, colours: seq<string>, i: nat): (r: Tool)
    requires i < |colours|
    ensures i == |colours| - 1 ==> r.erasing && r.selected == t.selected
    ensures i < |colours| - 1 ==> !r.erasing && r.selected == Some(colours[i])
  {
    match Buttons(colours)[i]
    case ColourSlot(c) => PickColour(t, c)
    case EraseSlot => Erase(t)
  }

  /** The brush-size buttons. */
  const BrushSizes: seq<int> := [4, 8, 12, 16, 20, 24, 28, 32]

  /** A brush-size button: the brush and the eraser take the chosen size. */
  function PickBrushSize(t: Tool, choice: nat): (r: Tool)
    requires choice < |BrushSizes|
    ensures r.brushSize == BrushSizes[choice]
    ensures 4 <= r.brushSize <= 32 && r.brushSize % 4 == 0
    ensures r.eraserSize == r.brushSize
    ensures r.selected == t.selected && r.erasing == t.erasing && r.transparency == t.transparency
  {
    var size := BrushSizes[choice];
    t.(brushSize := size, eraserSize := size)
  }

  /** The transparency slider, whose range input yields integers 0..100. */
  function SetTransparency(t: Tool, percent: int): (r: Tool)
    requires 0 <= percent <= 100
    ensures ValidTool(t) ==> ValidTool(r)
    ensures r.transparency == percent
    ensures r.selected == t.selected && r.erasing == t.erasing && r.brushSize == t.brushSize
  {
    t.(transparency := percent)
  }

  // --------------------------------------------------- saved settings

  /** The local-storage entries read at start-up; `None` is a missing key. */
  datatype Stored = Stored(
    colour: Option<string>,
    image: Option<string>,
    brushSize: Option<string>,
    alphaPercent: Option<string>)

  /** A string is truthy in JavaScript when it is not empty. */
  predicate Truthy(s: Option<string>)
  {
    s.Some? && s.value != ""
  }

  /** The brush size a stored entry yields, when `parseInt` gives a positive
      integer. */
  function RestoredSize(entry: Option<string>): (r: Option<int>)
    ensures r.Some? ==> entry.Some? && r.value > 0 && r == ParseInt(entry.value)
    ensures r.Some? <==> entry.Some? && ParseInt(entry.value).Some? && ParseInt(entry.value).value > 0
  {
    if !Truthy(entry) then None
    else
      var n := ParseInt(entry.value);
      if n.Some? && n.value > 0 then n else None
  }

  /** The transparency a stored entry yields, when `parseInt` gives an
      integer in `[0, 100]`. */
  function RestoredAlpha(entry: Option<string>): (r: Option<int>)
    ensures r.Some? ==> entry.Some? && 0 <= r.value <= 100 && r == ParseInt(entry.value)
    ensures r.Some? <==> entry.Some? && ParseInt(entry.value).Some? && 0 <= ParseInt(entry.value).value <= 100
  {
    if !Truthy(entry) then None
    else
      var a := ParseInt(entry.value);
      if a.Some? && 0 <= a.value <= 100 then a else None
  }

  /** A stored negative number is refused: after any white space, `-` and
      digits never restore a brush size, and restore no transparency unless
      the digits are all zero (`parseInt` then gives -0, which passes the
      range check as 0). */
  lemma NegativeEntries(w: string, ds: string, rest: string)
    requires forall i :: 0 <= i < |w| ==> IsJsSpace(w[i])
    requires ds != [] && AllDigits(ds)
    requires rest == [] || !IsDigit(rest[0])
    ensures RestoredSize(Some(w + "-" + ds + rest)) == None
    ensures DigitsValue(ds) > 0 ==> RestoredAlpha(Some(w + "-" + ds + rest)) == None
  {
    ParseIntSigned(w, ds, rest);
  }

  /** A `+` sign is read like none: `+` and digits restore what the digits
      alone would. */
  lemma PlusEntries(w: string, ds: string, rest: string)
    requires forall i :: 0 <= i < |w| ==> IsJsSpace(w[i])
    requires ds != [] && AllDigits(ds)
    requires rest == [] || !IsDigit(rest[0])
    ensures RestoredSize(Some(w + "+" + ds + rest))
      == if DigitsValue(ds) > 0 then Some(DigitsValue(ds) as int) else None
    ensures RestoredAlpha(Some(w + "+" + ds + rest))
      == if DigitsValue(ds) <= 100 then Some(DigitsValue(ds) as int) else None
  {
    ParseIntSigned(w, ds, rest);
  }

  datatype Restored = Restored(tool: Tool, image: Option<string>)

  /** The start-up effect: every truthy entry that passes its check replaces
      the current value; anything else leaves the default in place. */
  function Restore(t: Tool, image: Option<string>, saved: Stored): (r: Restored)
    ensures ValidTool(t) ==> ValidTool(r.tool)
    ensures r.tool.erasing == t.erasing
    ensures r.tool.selected == (if Truthy(saved.colour) then saved.colour else t.selected)
    ensures r.image == (if Truthy(saved.image) then saved.image else image)
    ensures r.tool.brushSize == (if RestoredSize(saved.brushSize).Some? then RestoredSize(saved.brushSize).value else t.brushSize)
    ensures r.tool.transparency == (if RestoredAlpha(saved.alphaPercent).Some? then RestoredAlpha(saved.alphaPercent).value else t.transparency)
  {
    var selected := if Truthy(saved.colour) then saved.colour else t.selected;
    var image' := if Truthy(saved.image) then saved.image else image;
    var size := match RestoredSize(saved.brushSize)
      case Some(n) => n
      case None => t.brushSize;
    var eraser := match RestoredSize(saved.brushSize)
      case Some(n) => n
      case None => t.eraserSize;
    var alpha := match RestoredAlpha(saved.alphaPercent)
      case Some(a) => a
      case None => t.transparency;
    Restored(t.(selected := selected, brushSize := size, eraserSize := eraser, transparency := alpha), image')
  }

  /** What the persistence effects leave in storage for a settings state:
      the picked colour, `String(brushSize)`, `String(transparency)` and the
      current image. */
  function Persist(t: Tool, image: Option<string>): (s: Stored)
    requires ValidTool(t)
    ensures s.colour == t.selected && s.image == image
    ensures RestoredSize(s.brushSize) == Some(t.brushSize)
    ensures RestoredAlpha(s.alphaPercent) == Some(t.transparency)
  {
    ParseIntRoundTrip(t.brushSize);
    ParseIntRoundTrip(t.transparency);
    Stored(t.selected, image, Some(NatToString(t.brushSize)), Some(NatToString(t.transparency)))
  }

  /** Saving and restarting gives back the saved settings (eraser mode is
      not saved and restarts off). */
  lemma PersistRestoreRoundTrip(t: Tool, image: Option<string>)
    requires ValidTool(t)
    requires t.selected != Some("") && image != Some("")
    ensures Restore(Initial, None, Persist(t, image)) == Restored(t.(erasing := false), image)
  {
    ParseIntRoundTrip(t.brushSize);
    ParseIntRoundTrip(t.transparency);
  }

  // ---------------------------------------------------------------- images

  /** `list.indexOf(x)`: the first position of `x`, or -1. */
  function IndexOf(list: seq<string>, x: string): (i: int)
    ensures -1 <= i < |list|
    ensures i == -1 <==> x !in list
    ensures 0 <= i ==> list[i] == x && x !in list[..i]
  {
    if list == [] then -1
    else if list[0] == x then 0
    else
      var j := IndexOf(list[1..], x);
      if j == -1 then -1
      else
        assert list[..j + 1] == [list[0]] + list[1..][..j];
        j + 1
  }

  /** The "New" handler's choice of background: nothing on an empty list;
      otherwise the image after the current one (wrapping round), or the
      first image when there is no current image or it is not listed. */
  function NextImage(list: seq<string>, current: Option<string>): (next: Option<string>)
    ensures next.None? <==> |list| == 0
    ensures next.Some? ==> next.value in list
    ensures |list| > 0 && Truthy(current) && current.value in list ==>
      next == Some(list[(IndexOf(list, current.value) + 1) % |list|])
    ensures |list| > 0 && !(Truthy(current) && current.value in list) ==> next == Some(list[0])
  {
    if |list| == 0 then None
    else
      var idx := if Truthy(current) then IndexOf(list, current.value) else -1;
      if idx >= 0 then Some(list[(idx + 1) % |list|]) else Some(list[0])
  }

  /** What "New" does: nothing at all when no image is listed; otherwise
      it shows the next image and, when the canvas has a context, wipes the
      painting. */
  datatype NewOutcome = NewOutcome(image: Option<string>, clearsCanvas: bool)

  function OnNew(list: seq<string>, current: Option<string>, hasContext: bool): (r: NewOutcome)
    ensures |list| == 0 ==> r == NewOutcome(current, false)
    ensures |list| > 0 ==> r.image == NextImage(list, current) && r.image.Some? && (r.clearsCanvas <==> hasContext)
  {
    match NextImage(list, current)
    case None => NewOutcome(current, false)
    case Some(next) => NewOutcome(Some(next), hasContext)
  }

  /** The image-list loader: with no current image, show the first one. */
  function FirstImage(list: seq<string>, current: Option<string>): (r: Option<string>)
    ensures Truthy(current) ==> r == current
    ensures !Truthy(current) && |list| > 0 ==> r == Some(list[0])
    ensures !Truthy(current) && |list| == 0 ==> r == current
  {
    if !Truthy(current) && |list| > 0 then Some(list[0]) else current
  }

  /** Start-up as written: the restore effect, and the image-list loader of
      the first render. That loader closed over the first render's image,
      which is still null, so once the listing arrives it shows (and saves)
      the first listed image over the restored one. Later runs of the loader
      see an image and change nothing. */
  function StartUpAsWritten(saved: Stored, list: seq<string>): (r: Restored)
    ensures r.tool == Restore(Initial, None, saved).tool
    ensures |list| > 0 ==> r.image == Some(list[0])
    ensures |list| == 0 ==> r.image == Restore(Initial, None, saved).image
  {
    var restored := Restore(Initial, None, saved);
    var loaded := FirstImage(list, None);
    Restored(restored.tool, if loaded.Some? then loaded else restored.image)
  }

  /** Start-up as intended: the loader only fills in an image when none was
      restored. */
  function StartUp(saved: Stored, list: seq<string>): (r: Restored)
    ensures r.tool == Restore(Initial, None, saved).tool
    ensures Truthy(saved.image) ==> r.image == saved.image
    ensures !Truthy(saved.image) && |list| > 0 ==> r.image == Some(list[0])
  {
    var restored := Restore(Initial, None, saved);
    Restored(restored.tool, FirstImage(list, restored.image))
  }

  /** As written, a saved image other than the first listed one does not
      survive a restart. */
  lemma SavedImageLost(saved: Stored, list: seq<string>)
    requires Truthy(saved.image) && |list| > 0 && saved.image.value != list[0]
    ensures StartUpAsWritten(saved, list).image != saved.image
  {
  }

  /** The concrete case: `b.png` was saved, the directory holds `a.png` and
      `b.png`, and the restart shows `a.png`. */
  lemma SavedImageLostExample()
    ensures StartUpAsWritten(Stored(None, Some("/images/b.png"), None, None), ["/images/a.png", "/images/b.png"]).image
      == Some("/images/a.png")
  {
  }

  /** With the intended start-up, saving and restarting gives back every
      saved setting and the saved image, whatever the directory holds. */
  lemma RestartRoundTrip(t: Tool, image: Option<string>, list: seq<string>)
    requires ValidTool(t)
    requires t.selected != Some("") && image != Some("")
    ensures StartUp(Persist(t, image), list).tool == t.(erasing := false)
    ensures image.Some? ==> StartUp(Persist(t, image), list).image == image
  {
    PersistRestoreRoundTrip(t, image);
  }

  /** On a list without repeats or empty names, "New" moves from the `k`-th
      image to the next one, and from the last back to the first. */
  lemma NextOfListed(list: seq<string>, k: nat)
    requires Distinct(list) && "" !in list
    requires k < |list|
    ensures NextImage(list, Some(list[k])) == Some(list[Succ(k, |list|)])
  {
    assert list[k] in list;
    if k + 1 == |list| {
      ModUnique(k + 1, |list|, 1, 0);
    } else {
      ModUnique(k + 1, |list|, 0, k + 1);
    }
  }

  /** Pressing "New" `n` times. */
  function Advance(list: seq<string>, current: Option<string>, n: nat): Option<string>
    decreases n
  {
    if n == 0 then current
    else
      match NextImage(list, current)
      case None => current
      case Some(next) => Advance(list, Some(next), n - 1)
  }

  /** The position after `i` on a cycle of `len` positions. */
  function Succ(i: nat, len: nat): nat
  {
    if i + 1 == len then 0 else i + 1
  }

  /** The position `n` steps after `k` on a cycle of `len` positions. */
  function Walk(k: nat, len: nat, n: nat): nat
    decreases n
  {
    if n == 0 then k else Walk(Succ(k, len), len, n - 1)
  }

  lemma {:induction false} AdvanceWalks(list: seq<string>, k: nat, n: nat)
    requires Distinct(list) && "" !in list
    requires k < |list|
    ensures Walk(k, |list|, n) < |list|
    ensures Advance(list, Some(list[k]), n) == Some(list[Walk(k, |list|, n)])
    decreases n
  {
    if n > 0 {
      NextOfListed(list, k);
      AdvanceWalks(list, Succ(k, |list|), n - 1);
    }
  }

  lemma {:induction false} WalkIsModular(k: nat, len: nat, n: nat)
    requires k < len
    ensures Walk(k, len, n) == (k + n) % len
    decreases n
  {
    if n == 0 {
      ModUnique(k, len, 0, k);
    } else {
      WalkIsModular(Succ(k, len), len, n - 1);
      WrapStep(k, n, len);
      if k + 1 == len {
        ModUnique(k + 1, len, 1, 0);
      } else {
        ModUnique(k + 1, len, 0, k + 1);
      }
    }
  }

  /** On a list without repeats or empty names, "New" walks the list in
      order: `n` presses from the `k`-th image reach image `(k + n) mod len`,
      so every image comes round once per `len` presses. */
  lemma AdvanceCycles(list: seq<string>, k: nat, n: nat)
    requires Distinct(list) && "" !in list
    requires k < |list|
    ensures Advance(list, Some(list[k]), n) == Some(list[(k + n) % |list|])
  {
    AdvanceWalks(list, k, n);
    WalkIsModular(k, |list|, n);
  }

  /** A directory's image listing is walked in order by "New": from the
      `k`-th listed image, `n` presses reach image `(k + n) mod len`. */
  lemma NewWalksListing(files: seq<string>, k: nat, n: nat)
    requires Distinct(files)
    requires k < |ImageServer.KeepImages(files)|
    ensures var urls := ImageServer.KeepImages(files);
      Advance(urls, Some(urls[k]), n) == Some(urls[(k + n) % |urls|])
  {
    var urls := ImageServer.KeepImages(files);
    ImageServer.ListingKeepsDistinct(files);
    assert "" !in urls by {
      ImageServer.ListedUnderImages(files);
    }
    AdvanceCycles(urls, k, n);
  }

  // --------------------------------------------------------------- strokes

  /** A position on the stage, in CSS pixels. */
  datatype Point = Point(x: real, y: real)

  /** `globalCompositeOperation`: paint over, or cut away what is there. */
  datatype Composite = SourceOver | DestinationOut

  /** The canvas settings a stroke is drawn with. */
  datatype Style = Style(op: Composite, alpha: real, width: int, ink: string)

  /** What a pointer event asks the canvas to draw: a filled disc of
      diameter `style.width`, or a round-capped segment of that width. */
  datatype Mark = Dot(centre: Point, style: Style) | Segment(from: Point, to: Point, style: Style)

  /** `isDrawingRef` and `lastPointRef`. */
  datatype Pen = Pen(drawing: bool, last: Option<Point>)

  datatype PenStep = PenStep(pen: Pen, mark: Option<Mark>)

  const Idle: Pen := Pen(false, None)

  function Clamp01(x: real): (r: real)
    ensures 0.0 <= r <= 1.0
    ensures 0.0 <= x <= 1.0 ==> r == x
  {
    if x < 0.0 then 0.0 else if x > 1.0 then 1.0 else x
  }

  /** The ink of a painting stroke: the selected colour, black when none is
      selected (or it is the empty string). */
  function Ink(t: Tool): string
  {
    if Truthy(t.selected) then t.selected.value else "#000000"
  }

  /** The canvas settings for the current mode: the eraser removes with
      full strength, the brush paints the ink at `1 - transparency / 100`. */
  function StyleOf(t: Tool): (s: Style)
    ensures s.width == t.brushSize
    ensures t.erasing ==> s.op == DestinationOut && s.alpha == 1.0
    ensures !t.erasing ==> s.op == SourceOver && 0.0 <= s.alpha <= 1.0 && s.ink == Ink(t)
    ensures !t.erasing && 0 <= t.transparency <= 100 ==> s.alpha == 1.0 - t.transparency as real / 100.0
  {
    if t.erasing then Style(DestinationOut, 1.0, t.brushSize, "rgba(0,0,0,1)")
    else Style(SourceOver, Clamp01(1.0 - t.transparency as real / 100.0), t.brushSize, Ink(t))
  }

  /** The eraser's style ignores the colour and the transparency. */
  lemma EraserIgnoresColour(t: Tool, colour: Option<string>, percent: int)
    requires t.erasing
    ensures StyleOf(t) == StyleOf(t.(selected := colour, transparency := percent))
  {
  }

  /** More transparency never gives a more opaque brush. */
  lemma AlphaAntitone(t: Tool, percent: int)
    requires !t.erasing && t.transparency <= percent
    ensures StyleOf(t.(transparency := percent)).alpha <= StyleOf(t).alpha
  {
  }

  /** `startDraw`: without a canvas context nothing happens; otherwise the
      pen goes down at `p` and a dot is drawn there. */
  function StartDraw(pen: Pen, t: Tool, hasContext: bool, p: Point): (r: PenStep)
    ensures !hasContext ==> r == PenStep(pen, None)
    ensures hasContext ==> r.pen == Pen(true, Some(p)) && r.mark == Some(Dot(p, StyleOf(t)))
  {
    if !hasContext then PenStep(pen, None)
    else PenStep(Pen(true, Some(p)), Some(Dot(p, StyleOf(t))))
  }

  /** `moveDraw`: ignored unless the pen is down and there is a context;
      then a segment is drawn from the last point (or from `p` itself when
      there is none) and `p` becomes the last point. */
  function MoveDraw(pen: Pen, t: Tool, hasContext: bool, p: Point): (r: PenStep)
    ensures !pen.drawing || !hasContext ==> r == PenStep(pen, None)
    ensures pen.drawing && hasContext ==>
      r.pen == Pen(true, Some(p)) && r.mark.Some? && r.mark.value.Segment? &&
      r.mark.value.to == p && r.mark.value.style == StyleOf(t)
  {
    if !pen.drawing || !hasContext then PenStep(pen, None)
    else
      var from := if pen.last.Some? then pen.last.value else p;
      PenStep(Pen(true, Some(p)), Some(Segment(from, p, StyleOf(t))))
  }

  /** `endDraw`, also run when the pointer leaves the canvas. */
  function EndDraw(pen: Pen): (r: Pen)
    ensures !r.drawing && r.last.None?
  {
    Idle
  }

  /** The pen is down exactly when it remembers a last point. */
  predicate PenInv(pen: Pen)
  {
    pen.drawing <==> pen.last.Some?
  }

  lemma PenOperationsKeepInv(pen: Pen, t: Tool, hasContext: bool, p: Point)
    requires PenInv(pen)
    ensures PenInv(StartDraw(pen, t, hasContext, p).pen)
    ensures PenInv(MoveDraw(pen, t, hasContext, p).pen)
    ensures PenInv(EndDraw(pen))
  {
  }

  /** Moving the pointer through `ps` with the pen down. */
  function Drag(pen: Pen, t: Tool, ps: seq<Point>): (r: seq<Mark>)
    decreases |ps|
  {
    if ps == [] then []
    else
      var step := MoveDraw(pen, t, true, ps[0]);
      (if step.mark.Some? then [step.mark.value] else []) + Drag(step.pen, t, ps[1..])
  }

  /** A drag after the pen went down at `start` draws one connected
      polyline: segment `i` runs from the previous point to `ps[i]`. */
  lemma {:induction false} DragIsConnected(t: Tool, start: Point, ps: seq<Point>)
    ensures var marks := Drag(Pen(true, Some(start)), t, ps);
      && |marks| == |ps|
      && forall i :: 0 <= i < |ps| ==>
           marks[i] == Segment(if i == 0 then start else ps[i - 1], ps[i], StyleOf(t))
    decreases |ps|
  {
    if ps != [] {
      DragIsConnected(t, ps[0], ps[1..]);
      var rest := Drag(Pen(true, Some(ps[0])), t, ps[1..]);
      var marks := Drag(Pen(true, Some(start)), t, ps);
      assert marks == [Segment(start, ps[0], StyleOf(t))] + rest;
      forall i | 0 < i < |ps|
        ensures marks[i] == Segment(ps[i - 1], ps[i], StyleOf(t))
      {
        assert marks[i] == rest[i - 1];
        assert ps[1..][i - 1] == ps[i];
        if i > 1 {
          assert ps[1..][i - 2] == ps[i - 1];
        }
      }
    }
  }

  // ----------------------------------------------------------------- clear

  /** "Clear" from the navigation, and the dialog's "Yes!" and "Nope". */
  datatype ClearEvent = RequestClear | ConfirmYes | ConfirmNo

  datatype ClearStep = ClearStep(open: bool, clears: bool)

  /** A request only opens the dialog; its buttons exist only while it is
      open, and both close it, "Yes!" after emitting the clear. */
  function OnClearEvent(open: bool, e: ClearEvent): (r: ClearStep)
    ensures r.clears <==> open && e == ConfirmYes
    ensures r.open <==> e == RequestClear
  {
    match e
    case RequestClear => ClearStep(true, false)
    case ConfirmYes => if open then ClearStep(false, true) else ClearStep(open, false)
    case ConfirmNo => if open then ClearStep(false, false) else ClearStep(open, false)
  }

  /** Whether the dialog is open after `events`, starting closed. */
  function OpenAfter(events: seq<ClearEvent>): bool
    decreases |events|
  {
    if events == [] then false
    else OnClearEvent(OpenAfter(events[..|events| - 1]), events[|events| - 1]).open
  }

  /** Whether the `k`-th event clears the canvas. */
  function ClearsAt(events: seq<ClearEvent>, k: nat): bool
    requires k < |events|
  {
    OnClearEvent(OpenAfter(events[..k]), events[k]).clears
  }

  /** The canvas is cleared exactly by a "Yes!" that directly follows a
      request: never by a request alone, a "Nope" or a repeated "Yes!". */
  lemma ClearIsTwoStep(events: seq<ClearEvent>, k: nat)
    requires k < |events|
    ensures ClearsAt(events, k) <==> events[k] == ConfirmYes && k > 0 && events[k - 1] == RequestClear
  {
    if k > 0 {
      assert events[..k][..k - 1] == events[..k - 1];
    }
  }
}

=== FILE: routes.dfy ===
/** The hash router of the single-page client (src/client/App.tsx): the
    location hash picks one of three pages by prefix. */
module Routes {
  import opened Basics

  /** The pages the app can show: the landing page, the paint page and the
      memory game. */
  datatype Route = Home | Paint | Memory

  /** `s.replace(c, '')` with a one-character pattern: only the first
      occurrence of `c` is removed. */
  function RemoveFirst(s: string, c: char): (r: string)
    ensures c !in s ==> r == s
    ensures c in s ==> |r| == |s| - 1
    ensures |s| > 0 && s[0] == c ==> r == s[1..]
  {
    if s == [] then []
    else if s[0] == c then s[1..]
    else [s[0]] + RemoveFirst(s[1..], c)
  }

  /** The character removed is the first `c`: the string loses position
      `k` when `s[k]` is a `c` and none comes before it. */
  lemma {:induction false} RemoveFirstAt(s: string, c: char, k: nat)
    requires k < |s| && s[k] == c && c !in s[..k]
    ensures RemoveFirst(s, c) == s[..k] + s[k + 1..]
  {
    if k > 0 {
      assert s[0] in s[..k];
      assert s[1..][k - 1] == c;
      assert c !in s[1..][..k - 1] by {
        assert s[1..][..k - 1] == s[1..k];
        forall i | 0 <= i < k - 1 ensures s[1..k][i] != c {
          assert s[1..k][i] == s[..k][i + 1];
        }
      }
      RemoveFirstAt(s[1..], c, k - 1);
      assert s[..k] == [s[0]] + s[1..][..k - 1];
      assert s[k + 1..] == s[1..][k..];
    }
  }

  /** The path a hash denotes: the hash without its `#`, or `/home` when
      nothing is left. */
  function HashPath(hash: string): (p: string)
    ensures |p| > 0
  {
    var h := RemoveFirst(hash, '#');
    if h == "" then "/home" else h
  }

  /** No path starts with both `/paint` and `/memory`. */
  lemma PaintMemoryDisjoint(h: string)
    ensures !(StartsWith(h, "/paint") && StartsWith(h, "/memory"))
  {
    if StartsWith(h, "/memory") {
      assert h[..7][1] == 'm';
      DifferAt(h, "/paint", 1);
    }
  }

  /** `parse`: `/paint...` shows the paint page, otherwise `/memory...`
      shows the game, and anything else the landing page. Since the two
      prefixes exclude each other, the order of the tests does not matter. */
  function Parse(hash: string): (r: Route)
    ensures r == Paint <==> StartsWith(HashPath(hash), "/paint")
    ensures r == Memory <==> StartsWith(HashPath(hash), "/memory")
    ensures hash == [] ==> r == Home
  {
    var h := HashPath(hash);
    PaintMemoryDisjoint(h);
    if StartsWith(h, "/paint") then Paint
    else if StartsWith(h, "/memory") then Memory
    else Home
  }

  /** The hash that denotes each page. */
  function Href(r: Route): string
  {
    match r
    case Home => "#/home"
    case Paint => "#/paint"
    case Memory => "#/memory"
  }

  /** A sequence that differs from `prefix` at some position does not start
      with it. */
  lemma DifferAt(s: string, prefix: string, i: nat)
    requires i < |s| && i < |prefix| && s[i] != prefix[i]
    ensures !StartsWith(s, prefix)
  {
    if |prefix| <= |s| {
      assert s[..|prefix|][i] == s[i];
    }
  }

  /** Any hash that begins with a page's link opens that page, whatever
      follows (a sub-path or a query); in particular each link opens its
      own page. */
  lemma ParseHref(r: Route, tail: string)
    ensures Parse(Href(r) + tail) == r
  {
    var hash := Href(r) + tail;
    var p := Href(r)[1..] + tail;
    assert hash == ['#'] + p;
    assert HashPath(hash) == p;
    match r {
      case Home =>
        assert p[1] == 'h';
        DifferAt(p, "/paint", 1);
        DifferAt(p, "/memory", 1);
      case Paint =>
        assert p[..6] == "/paint";
      case Memory =>
        assert p[1] == 'm';
        DifferAt(p, "/paint", 1);
        assert p[..7] == "/memory";
    }
  }

  /** The page of `#path` by the prefix of `path` alone: `/paint` is checked
      first, but no path starts with both prefixes, so the three pages
      split the paths between them. */
  lemma ParseByPrefix(path: string)
    ensures Parse(['#'] + path) == Paint <==> StartsWith(path, "/paint")
    ensures Parse(['#'] + path) == Memory <==> StartsWith(path, "/memory")
    ensures Parse(['#'] + path) == Home <==> !StartsWith(path, "/paint") && !StartsWith(path, "/memory")
  {
    assert RemoveFirst(['#'] + path, '#') == path;
  }

  /** Without a hash, or with a bare `#`, the landing page is shown. */
  lemma EmptyHashIsHome()
    ensures Parse("") == Home
    ensures Parse("#") == Home
  {
    assert HashPath("") == "/home";
    assert HashPath("#") == "/home";
  }

  /** The page depends only on the path after the first `#`: a hash is read
      the same with or without it. */
  lemma HashSignIsOptional(path: string)
    requires '#' !in path
    ensures Parse(['#'] + path) == Parse(path)
  {
    assert RemoveFirst(['#'] + path, '#') == path;
  }
}
